=== FILE: README.md ===
# Schedule expressions and the recurring timer of hapi-cron-job

This project models the core of the hapi-cron-job plugin in Dafny.

The first part is the **schedule-expression parser** (`_parseText` and
`parseExpression`). It turns a short English expression into three second
counts:

- when the job first runs;
- when it runs the second time;
- how often it runs after that.

Otherwise it throws with an error code from 0 to 5. Two grammars are read:

- `every <quantity> <unit>`: `every 5 minutes`, `every plain hour`;
- `at <time>`: `at 14:00`, `at 3:30 pm`.

The second part is the **execution engine** (`_setTimeout` and
`_setInterval`). It turns a parsed schedule into delay requests to the
platform timer and keeps re-arming itself every interval. Any delay above
`MAX_INT_32` milliseconds is refused.

Modules, in dependency order:

- `Text`: string building blocks. ASCII lower-casing, `split` on one
  character and its inverse `Join`, the regular-expression word boundary
  `\b`, the leading `\w*` word, digit strings, `Number.prototype.toString`,
  JavaScript white space and trimming, and `substr`.
- `JsNumber`: the values held in the parser's three slots (`null`, an
  integer of magnitude at most 2^53, `NaN`, or a value outside the model).
  It also gives the `Number(string)` coercion and the `+`, `-` and `*` the
  parser applies.
- `Clock`: the time snapshot. The host clock is an input: the local and the
  UTC time of day, plus the configured mode (`local` or `GMT`).
- `Tokens`: the `TYPES` regular expressions as predicates. It also holds the
  unit table from `PERIODS`. The word patterns (`every`, `at`, `plain`,
  `anyNumber` and the five units) are stated on the token's leading word,
  and lemmas tie each of them to the literal anchored reading of its
  pattern. The two time patterns (`clockTime`, `fullTime`) are written
  character position by character position, one alternative per hour
  length, so they are that reading directly. Lemmas then restate both
  through the pieces of `split(':')` and the values of their digits.
- `Parser`: `parseExpression` and `_parseText` as pure functions of the
  expression and the clock.
- `ParserProperties`: what the parser promises. That covers each error code
  as an if-and-only-if, the shape of every returned schedule, what each
  grammar computes against an independent reference (the distance ahead to
  a time of day, the next whole minute or hour), and the surprising
  behaviours of the code as written.
- `Engine`: `_setTimeout` and `_setInterval`, and the times at which the
  callback runs. For every accepted schedule with a positive first delay,
  within the ceiling, the runs form an arithmetic progression.

The clock is a parameter, so nothing reads a real clock. The platform timer
is also modelled as data: a request is armed or refused. An armed delay
below one millisecond fires after one millisecond, which is the platform's
own rule.

## Behaviour worth knowing

Each case below is what the code does, and the model follows it.

- `@` on its own is not the `at` keyword. The pattern `/^(at|@)\b/` needs a
  word character right after `@`, so `@ 14:00` fails with code 0
  (`ParserProperties.AtSignAloneFails`).
- `at 3:30pm` (no space) fails with code 5. The 12-hour pattern matches
  `3:30pm undefined`, but no `am` or `pm` token follows. That makes code 5
  reachable, not merely defensive (`ParserProperties.CompactMeridiemFails`,
  `ParserProperties.NoTimeError`).
- `every plain minute|hour` always reads the local clock, whatever the
  mode (`ParserProperties.EveryReadsLocalClock`).
- `12:mm pm` becomes hour 24: the first run is at 00:mm after the coming
  midnight (`ParserProperties.TwelvePmIsAfterMidnight`).
- `12:mm am` keeps hour 12, which is noon (`ParserProperties.AtAm`).
- A one-digit 24-hour time such as `at 9:00` yields a `NaN` delay and fails
  with code 0 (`ParserProperties.OneDigitHourFails`).
- The 24-hour pattern ends in `\b` and nothing after it is checked, so text
  after `hh:mm` is accepted when it starts with a non-word character.
  `ParserProperties.AtTwentyFourHour` covers exact `hh:mm` tokens only. A
  tail such as `:45` sets the seconds: `at 10:30:45` at 10:00:00 first runs
  1845 seconds ahead (`ParserProperties.SecondsTailDigits`,
  `ParserProperties.SecondsTailExample`). A tail such as `:-9` gives a
  seconds field of -9. At 23:59:59, `at 00:00:-9` returns a schedule whose
  first delay is -8 seconds, because the distance is moved ahead by one
  day only once (`ParserProperties.NegativeSecondsParsed`). Such a schedule
  lies outside `Engine.InvocationProgression`, and the platform fires its
  first run after one millisecond.

For any valid local time of day, the first delay of `every plain minute`
is never 0. It lies between 1 and 60 seconds and ends on a whole minute
(`ParserProperties.EveryPlainMinute`).

## Model

| member | source | states |
|---|---|---|
| Text.Lower | index.js:267 | Lower-casing keeps the length. It leaves no ASCII capital, and every character is kept or replaced by its small letter. |
| Text.LowerOfLowercase | index.js:267 | An expression with no capitals is unchanged by lower-casing. |
| Text.LowerKeepsSpaces | index.js:267 | Lower-casing neither adds nor removes spaces, so the token count is that of the expression as typed. |
| Text.SplitPieces | index.js:102 | `split(' ')` gives one piece more than there are spaces, and no piece contains a space. |
| Text.JoinSplit | index.js:102 | Joining the pieces of a split with the separator gives back the original text. |
| Text.SplitJoin | index.js:102 | Splitting separator-free pieces joined by the separator gives back the pieces. |
| Text.SplitAtFirst | index.js:219-220 | The first piece of `split(':')` is the text before the first colon. |
| Text.FirstPiece | index.js:219-220 | The first piece of any split is a prefix free of the separator, ending where the text ends or at a separator. The later pieces are the split of what follows that separator. |
| Text.WordPrefixIsLeadingWord | index.js:73-85 | For a word `p`, the test `/^p\b/` holds exactly when `p` is the token's leading run of word characters. |
| Text.NatToStringValue | index.js:219 | `toString` of a non-negative integer prints digits that read back as the number, two of them from 10 to 99. |
| Text.TrimEnds | index.js:236-238 | The text `Number` reads is a contiguous piece of the input. Everything before and after it is white space, and the piece has white space at neither end. Input without white space at its ends is read whole. |
| Text.Substr | index.js:236-238 | `substr(start, n)` gives the n characters from `start`. If the text ends sooner, it gives the rest of the text from `start`. Past the end it gives nothing. |
| Text.Split | index.js:102 | `split` always gives at least one piece. Its pieces are stated by `Text.SplitPieces`, `Text.JoinSplit` and `Text.SplitJoin`. |
| JsNumber.ToNumber | index.js:168-192 | `Number(s)` on the quantity and on the time fields. What it gives is stated by the five lemmas below. |
| JsNumber.ToNumberOfDigits | index.js:168-192 | `Number` of a digit string is its decimal value when that is at most 2^53. A larger value is outside the model. |
| JsNumber.ToNumberOfShortDigits | index.js:236-238 | A one- or two-digit field reads as its value, which is below 100. |
| JsNumber.ToNumberOfNegativeDigit | index.js:238 | A minus sign followed by one digit reads as that digit negated, so a two-character field can be negative. |
| JsNumber.ToNumberOfBlank | index.js:238 | `Number` of an empty or blank text is 0. The missing seconds field of `hh:mm` therefore reads as 0. |
| JsNumber.ToNumberOfLeadingDigit | index.js:168-192 | A quantity starting with a digit never reads as a negative number. |
| JsNumber.ToNumberShortTexts | index.js:236-238 | `Number` never gives `null`. Of the texts of at most two characters, only `.1` to `.9` are outside the model. |
| Tokens.Period | index.js:60-69 | The entries of `PERIODS` the parser uses, in seconds. What their ratios mean for a schedule is stated by `ParserProperties.EveryHoursAsMinutes`, `ParserProperties.EveryDaysAsHours` and `ParserProperties.EveryWeeksAsDays`. |
| Tokens.IsFullTime | index.js:83 | The `fullTime` pattern, position by position. `Tokens.FullTimeFields` restates it in terms of field values. |
| Tokens.IsClockTime | index.js:82 | The `clockTime` pattern, position by position. `Tokens.ClockTimeFields` restates it in terms of field values. |
| Tokens.HourFieldValue | index.js:82-83 | The hour alternatives of the two time patterns accept exactly the one- or two-digit texts of value 0 to 23 and 1 to 12. |
| Tokens.FullTimeFields | index.js:83 | `fullTime` matches exactly when, splitting on `:`, the first piece is an hour from 0 to 23 and the second starts with a minute from 00 to 59. That minute is either the whole piece or followed by a non-word character. |
| Tokens.ClockTimeFields | index.js:82 | `clockTime` matches exactly when, splitting on `:`, the first piece is an hour from 1 to 12, and the second piece is a minute from 00 to 59 followed by an optional white space and then `am` or `pm` ending a word. |
| Tokens.KeywordPatterns | index.js:73-85 | `IsEvery`, `IsAt` and `IsPlain` hold exactly when the anchored `every`, `at`-or-`@` and `plain` patterns (each ending in `\b`) match. |
| Tokens.NumberPattern | index.js:84 | `IsAnyNumber` holds exactly when some non-empty run of leading digits ends at a word boundary. |
| Tokens.UnitPattern | index.js:76-80 | A unit's predicate holds exactly when one of the spellings its pattern accepts is followed by a word boundary. |
| Tokens.SpellingInitial | index.js:76-80 | Every spelling of a unit starts with that unit's own letter, so the five unit patterns are mutually exclusive. |
| Tokens.NoUnitByInitial | index.js:109-118 | A token whose first letter is none of s, m, h, d, w names no unit. |
| Tokens.UnitOf | index.js:159-164 | The unit found for a token is one whose pattern matches. When none is found, no unit pattern matches. |
| Tokens.UnitOfMatches | index.js:159-164 | A token names unit `u` exactly when `u`'s pattern matches it, whatever order the patterns are tried in. |
| Tokens.SpellingNamesUnit | index.js:76-80 | Each accepted spelling, written as the whole token, names its unit. |
| Tokens.KeywordsExclusive | index.js:73-74 | No token matches both `every` and `at`, so at most one grammar runs. |
| Tokens.DigitsAreNumber | index.js:84 | A token made only of digits matches the number pattern. |
| Tokens.PlainIsNotNumber | index.js:119-120 | `plain` never matches the number pattern, so the `plain` branch is reachable. |
| Parser.EveryBranch | index.js:106-203 | The `every` grammar either throws the internal error or sets code 0, 3 or 4. |
| Parser.ClockTimeHourField | index.js:219 | Inside a 12-hour match, the text before the first colon is a one- or two-digit hour from 1 to 12. `Number` reads that hour exactly. |
| Parser.AtBranch | index.js:204-249 | `handleAt` sets code 0, 2 or 5. |
| Parser.TargetTextOf | index.js:204-227 | The time text `handleAt` builds, or why it builds none. It is stated by `TwentyFourHourTarget`, `AmTarget`, `PmTarget`, `OneDigitTarget` and `TargetTextNotEmpty`. |
| Parser.SlotsOfFields | index.js:229-247 | The slots computed from the target's fields and the snapshot. They are stated by `IntegerFieldsSlots` and `NaNHourFails`. |
| Parser.Finish | index.js:255-263 | The final check. What it accepts is stated by `ParsedShape`, `FinishDaily`, `FinishEveryNumber` and `NaNHourFails`. |
| Parser.ParseTokens | index.js:96-265 | `parseExpression` on the split tokens. The if-and-only-if lemmas for codes 1 to 5 and for the internal error characterise its failures. `ParsedShape`, `EveryNumber`, `EveryPlainMinute`, `EveryPlainHour`, `AtTwentyFourHour`, `AtAm` and `AtPm` characterise its schedules. |
| Parser.Parse | index.js:87-268 | `_parseText`: lower-case, split on single spaces, then parse. It is stated by `ExpressionCountError` and `ParseOfWords`. |
| ParserProperties.TokenCountError | index.js:102-105 | Code 1 is reported exactly when the expression does not split into two or three tokens. |
| ParserProperties.ExpressionCountError | index.js:102-105 | On the raw expression, code 1 is reported exactly when it holds a number of spaces other than one or two. |
| ParserProperties.ParseOfWords | index.js:267 | Lower-case words joined by single spaces are parsed as exactly those tokens. |
| ParserProperties.UnitError | index.js:109-118 | Code 3 is reported exactly for an `every` expression whose unit token, possibly the missing third one, names no unit. |
| ParserProperties.QuantityError | index.js:119-156 | Code 4 is reported exactly for an `every` expression whose unit is valid and whose quantity is neither a number nor `plain`. |
| ParserProperties.PlainUnitError | index.js:119-153 | The internal error is thrown exactly for `every plain` with a second, day or week unit. |
| ParserProperties.TimePatternError | index.js:207-213 | Code 2 is reported exactly for an `at` expression whose time matches neither the 12-hour nor the 24-hour pattern. |
| ParserProperties.TargetTextNotEmpty | index.js:214-227 | Whenever `handleAt` builds a time text, that text is non-empty. |
| ParserProperties.NoTimeError | index.js:214-227 | Code 5 is reported exactly when the 12-hour pattern matches but the third token is neither `am` nor `pm`. |
| ParserProperties.UnknownKeyword | index.js:250-257 | With any other first word, no slot is set and the parser throws with code 0. |
| ParserProperties.FailureCodes | index.js:255-257 | Every failure carries a code from 0 to 5. |
| ParserProperties.NumberTokenStartsWithDigit | index.js:84 | A number token starts with a digit. |
| ParserProperties.ParsedShape | index.js:255-263 | Every returned schedule satisfies five facts: error 0, a non-zero first delay, a non-zero second delay, a positive interval, and a second delay one interval after the first. |
| ParserProperties.EveryBranchEvenlySpaced | index.js:158-201 | Whenever the `every` grammar sets no error, its second delay is the first plus the interval, and the interval is never negative. |
| ParserProperties.EveryNumber | index.js:158-201 | `every N <unit>` runs first after N units, then after 2N units, then every N units. A quantity of 0 fails with code 0. A schedule whose second delay is beyond 2^53 seconds is outside the model. |
| ParserProperties.EveryUnitConversion | index.js:167-195 | When one unit is k times another, `every N <unit>` and `every kN <smaller unit>` have the same outcome on every clock: the same schedule, the same failure, or both outside the model. |
| ParserProperties.EveryHoursAsMinutes | index.js:59-195 | `every N hours` has the outcome of `every 60N minutes`, for every N, because `PERIODS.hour` is 60 times `PERIODS.minute`. |
| ParserProperties.EveryDaysAsHours | index.js:59-195 | `every N days` has the outcome of `every 24N hours`, for every N, because `PERIODS.day` is 24 times `PERIODS.hour`. |
| ParserProperties.EveryWeeksAsDays | index.js:59-195 | `every N weeks` has the outcome of `every 7N days`, for every N, because `PERIODS.week` is 7 times `PERIODS.day`. |
| ParserProperties.EveryNumberBranch | index.js:158-201 | The `every` slots for a digit quantity N of unit u are N·period(u), twice that, and N·period(u). Each is exact up to 2^53 and outside the model beyond it. |
| ParserProperties.EveryPlainMinute | index.js:128-136 | `every plain minute` runs first at the next whole minute of the local clock, 1 to 60 seconds ahead, then every 60 seconds. |
| ParserProperties.EveryPlainHour | index.js:137-148 | `every plain hour` runs first at the next whole hour of the local clock, 1 to 3600 seconds ahead, then every 3600 seconds. |
| ParserProperties.EveryReadsLocalClock | index.js:126-148 | The `every` grammar gives the same outcome whatever the mode and the UTC clock. |
| ParserProperties.TwentyFourHourIsNotClockTime | index.js:207-209 | A 24-hour `hh:mm` followed by a third token whose first character is not `a`, `p` or white space is not claimed by the 12-hour pattern (the parser passes a missing token as `undefined`, which is such a token). |
| Parser.WrapNegative | index.js:240-243 | The day wrap of a negative distance. It is stated by `ParserProperties.WrapNegativeDistance`. |
| ParserProperties.WrapNegativeDistance | index.js:240-243 | A distance less than a day behind moves into the coming day. One further behind moves by one day only and stays negative. Anything else is kept. |
| Parser.SlotsOfTime | index.js:236-247 | The slots read from a target time text. They are stated by `DigitTimeSlots`, `SecondsTailSlots` and `IntegerFieldsSlots`. |
| ParserProperties.SecondsTailSlots | index.js:236-238 | For `hh:mm:..:00`, the hour and minute are the token's, and the seconds are `Number` of the two characters after the second colon. |
| ParserProperties.SecondsTailTarget | index.js:205-210 | A 24-hour `hh:mm` followed by `:` is not claimed by the 12-hour pattern, so the time text is the token with `:00` appended. |
| ParserProperties.IntegerFieldsSlots | index.js:236-247 | For a target `h:m:s` with any field value a two-character text can give (-9 to 99), the first delay is the target minus the snapshot time in seconds, plus a day when negative. So the delay can stay negative. The second delay is one day later and the interval is one day. |
| ParserProperties.SecondsTailBranch | index.js:83-238 | A 24-hour `hh:mm` followed by `:` and more text is accepted. Its hour and minute are read from the token, and its seconds are `Number` of the two characters after that colon. |
| ParserProperties.SecondsTailDigits | index.js:205-247 | For `at hh:mm:ss` with two digits `ss`, the first delay is `hh:mm:ss` minus the snapshot, plus a day when negative. |
| ParserProperties.SecondsTailExample | index.js:205-247 | `at 10:30:45` at 10:00:00 first runs 1845 seconds ahead, then daily. |
| ParserProperties.NegativeSecondsExample | index.js:236-247 | `at 00:00:-9` at 23:59:59 reads seconds -9 and gives a first delay of -8 seconds. |
| ParserProperties.NegativeSecondsParsed | index.js:204-263 | The final check accepts that negative delay, so parsing returns the schedule (-8, 86392, 86400). |
| ParserProperties.AtTokens | index.js:250-252 | An `at` expression is decided by `handleAt` on its second and third tokens and the snapshot of the configured mode. |
| ParserProperties.DigitTimeSlots | index.js:236-238 | A time text `hh:mm` or `hh:mm:00` is read field by field as its digits, with second 0. |
| ParserProperties.FinishDaily | index.js:240-263 | For a target time within the day, the first delay equals the reference distance ahead, which is below one day. A delay of 0 fails with code 0. |
| ParserProperties.TwentyFourHourTarget | index.js:207-209 | For a 24-hour token, the time text is the token with `:00` appended. |
| ParserProperties.TwentyFourHourBranch | index.js:207-247 | `handleAt` reads a 24-hour token's hour and minute as written, with second 0. |
| ParserProperties.AtTwentyFourHour | index.js:204-263 | For an exact token `hh:mm`, `at hh:mm` runs daily, first when the snapshot clock next shows hh:mm:00. That is the reference distance ahead, within the next day. |
| ParserProperties.PadHourToken | index.js:216 | Zero-padding a 12-hour `h:mm` gives a 24-hour token with the same hour and minute. |
| ParserProperties.TwelveHourMatches | index.js:82 | A 12-hour token followed by `am` or `pm` matches the clock-time pattern. |
| ParserProperties.AmTarget | index.js:215-216 | For `h:mm am`, the time text is the token zero-padded to `hh:mm`. |
| ParserProperties.AmBranch | index.js:215-238 | `handleAt` reads `h:mm am` with the hour as written. |
| ParserProperties.AtAm | index.js:204-263 | `at h:mm am` runs daily at h:mm as written, so `12:mm am` runs at noon. |
| ParserProperties.AmAsTwentyFourHour | index.js:215-216 | `at a am` has the same outcome as `at PadHour(a)`: a one-digit hour gets a leading zero, and a two-digit hour is left as it is, so `12:mm am` reads as hour 12. |
| ParserProperties.TwelveHourFields | index.js:219-220 | `split(':')` of a 12-hour token gives exactly its hour text and its minute text. |
| ParserProperties.PmHourText | index.js:219 | For a pm hour from 1 to 12, the printed hour+12 is two digits that read back as hour+12. |
| ParserProperties.PmTarget | index.js:218-222 | For `h:mm pm`, the time text is hour+12, the minutes as written, and `:00`. |
| ParserProperties.PmBranch | index.js:218-238 | `handleAt` reads `h:mm pm` as hour+12 and the minutes as written. |
| ParserProperties.AtPm | index.js:204-263 | For h from 1 to 11, `at h:mm pm` runs daily at (h+12):mm, the reference distance ahead. |
| ParserProperties.TwelvePmIsAfterMidnight | index.js:218-247 | `at 12:mm pm` is accepted, but its first run is at 00:mm after the coming midnight and never at noon. |
| ParserProperties.CompactMeridiemFails | index.js:207-227 | `at 3:30pm`, written without the space, fails with code 5. |
| ParserProperties.OneDigitHourFails | index.js:208-257 | `at h:mm` with a one-digit hour yields a `NaN` delay and fails with code 0. |
| ParserProperties.OneDigitTarget | index.js:208-209 | A one-digit `h:mm` is taken by the 24-hour pattern and becomes `h:mm:00`. |
| ParserProperties.OneDigitHourNaN | index.js:236 | The hour field `h:` of such a text is not a number. |
| ParserProperties.NaNHourFails | index.js:236-257 | A `NaN` hour field makes the first delay `NaN`, and the final check rejects it with code 0. |
| ParserProperties.AtSignAloneFails | index.js:74 | `@` alone does not match the `at`-or-`@` pattern, which needs a word character after `@`, while `@x` does, so `@ hh:mm` fails with code 0. |
| ParserProperties.EveryAloneFails | index.js:102-105 | `every` alone fails with code 1. |
| ParserProperties.WordQuantityFails | index.js:119-156 | A worded quantity with a valid unit, such as `every five minutes`, fails with code 4. |
| ParserProperties.UnknownUnitFails | index.js:109-118 | A unit word that starts with no unit's letter, such as `every 5 fortnights`, fails with code 3. |
| ParserProperties.WordTimeFails | index.js:207-213 | `at noon` fails with code 2. |
| Engine.SetTimeout | index.js:269-275 | `_setTimeout`. It is stated by `Engine.TimeoutCeiling`. |
| Engine.SetInterval | index.js:277-295 | `_setInterval`. It is stated by `Engine.IntervalRequests`. |
| Engine.FireDelay | index.js:273 | The delay after which an armed timer fires is at least one millisecond, and equals the requested delay when that is at least one millisecond. |
| Engine.Invocations | index.js:277-295 | The times the callback runs: the first and second runs, then the steady loop. They are stated by `Engine.InvocationProgression` and `Engine.OneSecondExample`. |
| Engine.LoopFirings | index.js:288-291 | The steady loop runs at most `count` times. It runs first at its start, and never before it. |
| Engine.TimeoutCeiling | index.js:269-275 | A delay is armed exactly when it is at most 2147483647 ms, the boundary included. It is passed on unchanged, never clamped or wrapped. |
| Engine.IntervalRequests | index.js:277-295 | With a missing callback or schedule, `_setInterval` answers `false` and arms nothing. Otherwise it answers `true` and makes three requests in order: the first run, the second run, and the loop start one interval after the second. Each is armed exactly when it is within the ceiling. |
| Engine.LoopProgression | index.js:288-291 | A loop whose interval is within the ceiling runs `count` times, evenly spaced by the interval. |
| Engine.LoopStopsAboveCeiling | index.js:288-291 | A loop whose interval is above the ceiling runs once and cannot re-arm itself. |
| Engine.InvocationProgression | index.js:281-292 | For an evenly spaced schedule within the ceiling, the callback runs at first+k·interval seconds, k = 0, 1, 2, … |
| Engine.OneSecondExample | index.js:277-295 | The schedule 1, 2, 1 runs the callback at 1 s, 2 s, 3 s, 4 s and 5 s. |
| Engine.ParsedScheduleRunsEvenly | index.js:255-292 | Every parsed schedule with a positive first delay, armed within the ceiling, runs the callback in an arithmetic progression of its interval. |

## Left out

- The option and job validation schemas (`Joi`, index.js:7-20) and the plugin
  registration (`exports.register`, index.js:297 onward). Registration is
  what calls the parser and the engine for each job.
- `getTimeData` (index.js:29-57): the real clock and the date, epoch and
  locale fields. It is replaced by the injected `HostClock` and `Mode`.
  The `ISSUE ON TIMEZONE PARAMS` throw is left out too, because the mode
  can only be `local` or `GMT`. Lemmas about daily targets require a time of
  day from 00:00:00 to 23:59:59. Some locales print midnight as `24:00:00`,
  and that case is not covered.
- The actual event loop and the platform timer. The model gives the times
  of the runs, not the interleaving of callbacks. The ordering between two
  jobs is not modelled.
- The text of the `console.error` message that `_setTimeout` logs when it
  refuses a delay. The refusal itself is modelled.
- `PERIODS.leap_year`, `year` and `month`, which the parser never uses.
- `toLowerCase` beyond ASCII letters. Non-ASCII capitals are left unchanged.
- JsNumber.ToNumber: `Number` is modelled only for integers up to 2^53 in
  magnitude and for short texts. Larger integer literals, which a double
  holds only rounded (`every 9007199254740993 seconds` gives
  9007199254740992) or reads as `Infinity`, read as `Unrepresented`. So do
  fractions, exponents, hexadecimal, and any other text longer than two
  characters after trimming, even text that JavaScript reads as `NaN`. For
  example, `every 5:30 minutes` passes the number pattern (`5` and then
  `\b`). JavaScript reads `Number("5:30")` as `NaN` and fails with code 0,
  while the model reads it as `Unrepresented`. A parse that reaches such a
  value ends in `Unmodelled`.
- JsNumber.Plus, JsNumber.Minus, JsNumber.Times: a result beyond 2^53 is
  `Unrepresented`, because floating-point rounding is not modelled.
- Text.Substr: strings are sequences of Unicode characters, while
  JavaScript's `substr` and `length` count UTF-16 code units. The two agree
  on every text without characters outside the Basic Multilingual Plane.
  They differ for a time token holding such a character: take `at
  14:00😀00`, where 😀 is U+1F600, at 10:00:00. In JavaScript the seconds
  field is a lone surrogate followed by `0`, so the delay is `NaN` and
  parsing fails with code 0. The model reads the seconds field as `00` and
  returns a schedule of 14400 seconds.
- `_setInterval` on objects other than parser results. `hasOwnProperty` is
  assumed true for all three fields, as it is for every schedule the parser
  returns, and the callback's truthiness is a boolean.
- Parser.EveryBranch: its own contract only bounds the error codes. The
  values it computes are stated by `ParserProperties.EveryNumber`,
  `EveryNumberBranch`, `EveryPlainMinute` and `EveryPlainHour`.
- Parser.AtBranch: its own contract only bounds the error codes. The values
  are stated by `ParserProperties.AtTwentyFourHour`, `AtAm`, `AtPm` and
  `TwelvePmIsAfterMidnight`.
- Engine.InvocationProgression: negative or zero first delays are not
  covered, because their timing depends on the platform's one-millisecond
  minimum.

=== FILE: clock.dfy ===
/** The time snapshot the parser reads. The host clock is an input: a
    time of day on the local clock and on the UTC clock, and the configured
    mode that chooses between them. */
module Clock {

  /** A wall-clock time of day, as the `HH:MM:SS` text of a snapshot reads. */
  datatype TimeOfDay = TimeOfDay(h: int, m: int, s: int) {
    predicate Valid() {
      0 <= h < 24 && 0 <= m < 60 && 0 <= s < 60
    }
  }

  /** The process-wide time base: `local` by default, `GMT` when the plugin
      is configured with `localTime: false`. */
  datatype Mode = Local | Gmt

  /** The host clock at the moment of parsing, read in both time bases. */
  datatype HostClock = HostClock(local: TimeOfDay, utc: TimeOfDay)

  /** The time of day of a snapshot taken in the given mode. */
  function Snapshot(clock: HostClock, mode: Mode): TimeOfDay {
    match mode
    case Local => clock.local
    case Gmt => clock.utc
  }

  /** Seconds elapsed since midnight. */
  function SecondsOfDay(t: TimeOfDay): (r: int)
    ensures t.Valid() ==> 0 <= r < 86400
  {
    3600 * t.h + 60 * t.m + t.s
  }
}

=== FILE: engine.dfy ===
/** The recurring execution engine (`_setTimeout` / `_setInterval`): a
    parsed schedule becomes three one-shot delay requests to the platform
    timer, the last of which re-requests itself every interval. The
    platform timer is modelled as data: each request is armed or refused,
    and the times at which the callback runs follow from the armed
    requests. All times are milliseconds after `_setInterval` is called. */
module Engine {
  import opened Optional
  import opened Parser
  import opened Clock
  import ParserProperties

  /** `MAX_INT_32`: the largest delay, in milliseconds, the engine passes to
      the platform timer. */
  const MaxInt32: int := 2147483647

  /** What `_setTimeout` does with a delay: hand it to the platform timer
      unchanged, or log the refusal and arm nothing. */
  datatype TimerRequest = Armed(delayMs: int) | Refused(delayMs: int)

  /** `_setTimeout(fn, ms)`. */
  function SetTimeout(ms: int): TimerRequest {
    if ms > MaxInt32 then Refused(ms) else Armed(ms)
  }

  /** The ceiling rule: a delay is armed exactly when it fits in a signed
      32-bit integer of milliseconds (the boundary value included), and it
      is passed on as computed: neither clamped, wrapped nor truncated. */
  lemma TimeoutCeiling(ms: int)
    ensures SetTimeout(ms).Armed? <==> ms < 0x8000_0000
    ensures SetTimeout(ms).delayMs == ms
    ensures SetTimeout(MaxInt32).Armed? && SetTimeout(MaxInt32 + 1).Refused?
  {
  }

  /** The platform timer's reading of an armed delay: a delay below one
      millisecond fires after one millisecond. */
  function FireDelay(ms: int): (r: int)
    ensures r >= 1 && (ms >= 1 ==> r == ms)
  {
    if ms < 1 then 1 else ms
  }

  /** The result of `_setInterval(fn, sched)`: its return value and the
      timer requests it made, in order. */
  datatype IntervalCall = IntervalCall(returned: bool, requests: seq<TimerRequest>)

  /** `_setInterval(fn, sched)`. `hasCallback` says whether `fn` is truthy;
      an absent schedule is `None`. A schedule produced by the parser always
      owns the three properties, so all three requests are made: the first
      and second runs, and the start of the steady loop one interval after
      the second run. */
  function SetInterval(hasCallback: bool, sched: Option<Schedule>): IntervalCall {
    if !hasCallback || sched.None? then IntervalCall(false, [])
    else
      var s := sched.value;
      IntervalCall(true, [SetTimeout(s.firstExec * 1000), SetTimeout(s.nextExec * 1000),
                          SetTimeout((s.nextExec + s.intervalInSec) * 1000)])
  }

  /** `_setInterval` arms nothing and answers `false` when the callback or
      the schedule is missing; otherwise it answers `true` and requests the
      first run, the second run and the loop start, in that order, with the
      schedule's seconds turned into milliseconds. */
  lemma IntervalRequests(hasCallback: bool, sched: Option<Schedule>)
    ensures var c := SetInterval(hasCallback, sched);
      && (c.returned <==> hasCallback && sched.Some?)
      && (!c.returned ==> c.requests == [])
      && (c.returned ==>
            var s := sched.value;
            && |c.requests| == 3
            && c.requests[0].delayMs == 1000 * s.firstExec
            && c.requests[1].delayMs == 1000 * s.nextExec
            && c.requests[2].delayMs == 1000 * (s.nextExec + s.intervalInSec)
            && (forall i :: 0 <= i < 3 ==> (c.requests[i].Armed? <==> c.requests[i].delayMs <= MaxInt32)))
  {
  }

  /** The first `count` runs of the steady loop (`intervaledFn`) when its
      first run is at `start`: each run calls the callback and then asks for
      the next run `intervalMs` later; once that request is refused the loop
      ends. */
  function LoopFirings(start: int, intervalMs: int, count: nat): (r: seq<int>)
    ensures |r| <= count
    ensures count > 0 ==> |r| >= 1 && r[0] == start
    ensures forall k :: 0 <= k < |r| ==> r[k] >= start
    decreases count
  {
    if count == 0 then []
    else
      [start] + match SetTimeout(intervalMs)
                case Armed(d) => LoopFirings(start + FireDelay(d), intervalMs, count - 1)
                case Refused(_) => []
  }

  /** The time an armed request fires, if it was armed. */
  function FiringTime(r: TimerRequest): seq<int> {
    match r
    case Armed(d) => [FireDelay(d)]
    case Refused(_) => []
  }

  /** The times the callback runs, among the first and second runs and the
      first `count` runs of the steady loop. */
  function Invocations(sched: Schedule, count: nat): seq<int> {
    var c := SetInterval(true, Some(sched));
    FiringTime(c.requests[0]) + FiringTime(c.requests[1])
    + match c.requests[2]
      case Armed(d) => LoopFirings(FireDelay(d), sched.intervalInSec * 1000, count)
      case Refused(_) => []
  }

  /** An interval the timer accepts keeps the loop going: its runs are
      evenly spaced by the interval. */
  lemma {:induction false} LoopProgression(start: int, intervalMs: int, count: nat)
    requires 1 <= intervalMs <= MaxInt32
    ensures |LoopFirings(start, intervalMs, count)| == count
    ensures forall k :: 0 <= k < count ==> LoopFirings(start, intervalMs, count)[k] == start + k * intervalMs
    decreases count
  {
    if count > 0 {
      LoopProgression(start + intervalMs, intervalMs, count - 1);
      var rest := LoopFirings(start + intervalMs, intervalMs, count - 1);
      var all := LoopFirings(start, intervalMs, count);
      assert all == [start] + rest;
      forall k | 1 <= k < count
        ensures all[k] == start + k * intervalMs
      {
        assert all[k] == rest[k - 1] == start + intervalMs + (k - 1) * intervalMs;
        MulSucc(k - 1, intervalMs);
      }
    }
  }

  lemma MulSucc(k: int, m: int)
    ensures m + k * m == (k + 1) * m
  {
  }

  /** An interval above the ceiling cannot be re-armed: the steady loop
      runs once and stops. */
  lemma LoopStopsAboveCeiling(start: int, intervalMs: int, count: nat)
    requires intervalMs > MaxInt32 && count >= 1
    ensures LoopFirings(start, intervalMs, count) == [start]
  {
  }

  /** With the second run one interval after the first and every delay
      within the ceiling, the callback runs at the first delay and then
      every interval: the k-th run (from 0) comes `first + k * interval`
      seconds after arming, two priming runs followed by the loop. */
  lemma InvocationProgression(sched: Schedule, count: nat)
    requires sched.firstExec >= 1 && sched.intervalInSec >= 1
    requires sched.nextExec == sched.firstExec + sched.intervalInSec
    requires (sched.nextExec + sched.intervalInSec) * 1000 <= MaxInt32
    ensures |Invocations(sched, count)| == count + 2
    ensures forall k :: 0 <= k < count + 2 ==>
      Invocations(sched, count)[k] == (sched.firstExec + k * sched.intervalInSec) * 1000
  {
    InvocationsAllArmed(sched, count);
    PrimedLoop(sched.firstExec, sched.intervalInSec, count);
  }

  /** The two priming runs followed by `count` runs of an armed loop. */
  lemma PrimedLoop(f: int, i: int, count: nat)
    requires 1 <= i && i * 1000 <= MaxInt32
    ensures var all := [f * 1000, (f + i) * 1000] + LoopFirings((f + 2 * i) * 1000, i * 1000, count);
      && |all| == count + 2
      && forall k :: 0 <= k < |all| ==> all[k] == (f + k * i) * 1000
  {
    LoopProgression((f + 2 * i) * 1000, i * 1000, count);
    PrimedProgression(f, i, LoopFirings((f + 2 * i) * 1000, i * 1000, count));
  }

  /** Two priming runs at `f` and `f + i` seconds followed by a loop that
      starts at `f + 2i` seconds and runs every `i` seconds form one
      progression. */
  lemma PrimedProgression(f: int, i: int, loop: seq<int>)
    requires forall k :: 0 <= k < |loop| ==> loop[k] == (f + 2 * i) * 1000 + k * (i * 1000)
    ensures var all := [f * 1000, (f + i) * 1000] + loop;
      forall k :: 0 <= k < |all| ==> all[k] == (f + k * i) * 1000
  {
    var all := [f * 1000, (f + i) * 1000] + loop;
    forall k | 2 <= k < |all|
      ensures all[k] == (f + k * i) * 1000
    {
      assert all[k] == loop[k - 2] == (f + 2 * i) * 1000 + (k - 2) * (i * 1000);
      ShiftedProduct(f, i, k);
    }
  }

  /** Within the ceiling all three requests are armed: two priming runs,
      then the loop from one interval after the second run. */
  lemma InvocationsAllArmed(sched: Schedule, count: nat)
    requires sched.firstExec >= 1 && sched.intervalInSec >= 1
    requires sched.nextExec == sched.firstExec + sched.intervalInSec
    requires (sched.nextExec + sched.intervalInSec) * 1000 <= MaxInt32
    ensures var f, i := sched.firstExec, sched.intervalInSec;
      Invocations(sched, count)
      == [f * 1000, (f + i) * 1000] + LoopFirings((f + 2 * i) * 1000, i * 1000, count)
  {
    var f, i := sched.firstExec, sched.intervalInSec;
    assert sched.nextExec + i == f + 2 * i;
  }

  lemma ShiftedProduct(f: int, i: int, k: int)
    ensures (f + 2 * i) * 1000 + (k - 2) * (i * 1000) == (f + k * i) * 1000
  {
  }

  /** The schedule `{firstExec: 1, nextExec: 2, intervalInSec: 1}` runs the
      callback at 1 s, 2 s, 3 s, 4 s and so on. */
  lemma OneSecondExample()
    ensures Invocations(Schedule(1, 2, 1, 0), 3) == [1000, 2000, 3000, 4000, 5000]
  {
    InvocationProgression(Schedule(1, 2, 1, 0), 3);
  }

  /** Every schedule the parser returns, armed with a positive first delay
      and within the ceiling, makes the callback run in an arithmetic
      progression of the interval from the first delay. */
  lemma ParsedScheduleRunsEvenly(tokens: seq<string>, clock: HostClock, mode: Mode, s: Schedule, count: nat)
    requires ParseTokens(tokens, clock, mode) == Parsed(s)
    requires s.firstExec >= 1 && (s.nextExec + s.intervalInSec) * 1000 <= MaxInt32
    ensures |Invocations(s, count)| == count + 2
    ensures forall k :: 0 <= k < count + 2 ==> Invocations(s, count)[k] == (s.firstExec + k * s.intervalInSec) * 1000
  {
    ParserProperties.ParsedShape(tokens, clock, mode);
    InvocationProgression(s, count);
  }
}

=== FILE: js_number.dfy ===
/** The numeric values that flow through the parser's three result slots,
    with JavaScript's `Number(string)` coercion and the arithmetic the
    parser performs on them. */
module JsNumber {
  import opened Text

  /** A JavaScript value in a numeric slot: `null` (the slot's initial value),
      an integer of magnitude at most 2^53, `NaN`, or a value this model does
      not represent (a non-integer, a larger number, which a double may hold
      only rounded, or a numeric literal form other than plain decimal). */
  datatype Num = Null | Val(v: int) | NaN | Unrepresented

  /** 2^53: every integer of at most this magnitude is held exactly by a
      JavaScript number; beyond it doubles round. */
  const MaxExact: int := 0x20_0000_0000_0000

  /** An integer result: exact within 2^53, outside the model beyond. */
  function Exact(x: int): Num {
    if -MaxExact <= x <= MaxExact then Val(x) else Unrepresented
  }

  /** JavaScript falsiness of a slot: `null`, `NaN` and zero are falsy. */
  predicate Falsy(n: Num) {
    n.Null? || n.NaN? || (n.Val? && n.v == 0)
  }

  /** The text after an optional leading sign. */
  function Unsigned(t: string): string {
    if |t| > 0 && (t[0] == '+' || t[0] == '-') then t[1..] else t
  }

  /** The text before an optional trailing decimal point. */
  function Mantissa(u: string): string {
    if |u| > 0 && u[|u| - 1] == '.' then u[..|u| - 1] else u
  }

  /** A decimal literal with an integer value: sign, digits, optional point. */
  predicate IsIntegerLiteral(t: string) {
    |Mantissa(Unsigned(t))| > 0 && AllDigits(Mantissa(Unsigned(t)))
  }

  function IntegerLiteralValue(t: string): int
    requires IsIntegerLiteral(t)
  {
    var magnitude: int := DigitsValue(Mantissa(Unsigned(t)));
    if t[0] == '-' then -magnitude else magnitude
  }

  /** `Number(s)`. Exact for every string whose trimmed text has at most two
      characters, and for signed integer literals up to 2^53 in magnitude;
      larger integer literals (which `Number` rounds, or reads as
      `Infinity`) and other longer texts (fractions, exponents, hexadecimal,
      `Infinity`, garbage) are `Unrepresented`. Its properties are stated by the lemmas below,
      so that the parser's proofs draw on them only where needed. */
  function ToNumber(s: string): Num {
    var t := Trim(s);
    if |t| == 0 then Val(0)
    else if IsIntegerLiteral(t) then Exact(IntegerLiteralValue(t))
    else if |t| == 2 && t[0] == '.' && IsDigit(t[1]) then
      (if t[1] == '0' then Val(0) else Unrepresented)
    else if |t| <= 2 then NaN
    else Unrepresented
  }

  /** A digit string reads as its decimal value up to 2^53; a longer number
      is outside the model. */
  lemma ToNumberOfDigits(s: string)
    requires |s| > 0 && AllDigits(s)
    ensures ToNumber(s) == Exact(DigitsValue(s))
    ensures DigitsValue(s) <= MaxExact ==> ToNumber(s) == Val(DigitsValue(s))
  {
    assert Trim(s) == s;
    assert Unsigned(s) == s && Mantissa(s) == s;
  }

  /** A one- or two-digit string reads as its value, below 100. */
  lemma ToNumberOfShortDigits(s: string)
    requires 1 <= |s| <= 2 && AllDigits(s)
    ensures DigitsValue(s) < 100
    ensures ToNumber(s) == Val(DigitsValue(s))
  {
    ShortDigitsValue(s);
    ToNumberOfDigits(s);
  }

  /** Empty or all-blank text reads as zero. */
  lemma ToNumberOfBlank(s: string)
    requires Trim(s) == ""
    ensures ToNumber(s) == Val(0)
  {
  }

  /** A text starting with a digit never reads as a negative number. */
  lemma ToNumberOfLeadingDigit(s: string)
    requires |s| > 0 && IsDigit(s[0])
    ensures ToNumber(s).Val? ==> ToNumber(s).v >= 0
  {
    assert TrimStart(s) == s;
    TrimEndPrefix(s);
    var t := Trim(s);
    if |t| > 0 {
      assert t[0] == s[0];
    }
  }

  /** `Number` never yields `null`, and of the texts of at most two
      characters after trimming only `.1` to `.9` are outside the model. */
  lemma ToNumberShortTexts(s: string)
    ensures !ToNumber(s).Null?
    ensures |Trim(s)| <= 2 && ToNumber(s).Unrepresented? ==>
      |Trim(s)| == 2 && Trim(s)[0] == '.' && IsDigit(Trim(s)[1]) && Trim(s)[1] != '0'
  {
    var t := Trim(s);
    if |t| <= 2 && IsIntegerLiteral(t) {
      ShortDigitsValue(Mantissa(Unsigned(t)));
    }
  }

  /** A minus sign followed by one digit reads as that digit negated. */
  lemma ToNumberOfNegativeDigit(c: char)
    requires IsDigit(c)
    ensures ToNumber(['-', c]) == Val(-(DigitValue(c) as int))
  {
    var s := ['-', c];
    TrimEnds(s);
    assert Unsigned(s) == [c] && Mantissa([c]) == [c];
    ShortDigitsValue([c]);
  }

  /** The number a slot holds in arithmetic: `null` counts as zero. */
  function IntOf(n: Num): int
    requires n.Null? || n.Val?
  {
    if n.Val? then n.v else 0
  }

  /** JavaScript `+` on numbers: `NaN` absorbs everything, an unrepresented
      operand leaves the sum unrepresented. */
  function Plus(a: Num, b: Num): Num {
    if a.NaN? || b.NaN? then NaN
    else if a.Unrepresented? || b.Unrepresented? then Unrepresented
    else Exact(IntOf(a) + IntOf(b))
  }

  /** JavaScript `-` on numbers. */
  function Minus(a: Num, b: Num): Num {
    if a.NaN? || b.NaN? then NaN
    else if a.Unrepresented? || b.Unrepresented? then Unrepresented
    else Exact(IntOf(a) - IntOf(b))
  }

  /** JavaScript `*` by an integer constant. */
  function Times(a: Num, k: int): Num {
    if a.NaN? then NaN
    else if a.Unrepresented? then Unrepresented
    else Exact(IntOf(a) * k)
  }
}

=== FILE: optional.dfy ===
/** A value that may be absent. */
module Optional {
  datatype Option<T> = None | Some(value: T)
}

=== FILE: parser.dfy ===
/** The schedule-expression parser (`_parseText` / `parseExpression`):
    a lower-cased expression is split on single spaces and read by one of
    two grammars, `every <quantity> <unit>` and `at|@ <time>`, into three
    second counts (first run, second run, steady interval) or a numbered
    error. The clock is an input, so the parser is a pure function. */
module Parser {
  import opened Text
  import opened Optional
  import opened JsNumber
  import opened Tokens
  import opened Clock

  /** `PERIODS.day`: the `at` interval and the slots' initial interval. */
  const SecondsPerDay: int := 86400

  /** The object `parseExpression` returns. */
  datatype Schedule = Schedule(firstExec: int, nextExec: int, intervalInSec: int, error: int)

  /** What one call of the parser does: return a schedule, throw the parse
      error carrying an error code, throw the internal "error in testing
      types" error, or reach a value this model does not represent. */
  datatype Outcome =
    | Parsed(schedule: Schedule)
    | Failed(code: int)
    | InternalError
    | Unmodelled

  /** The parser's local variables `firstExecSecRemaining`,
      `nextExecSecRemaining`, `intervalInSec` and `error`. */
  datatype Slots = Slots(first: Num, next: Num, interval: Num, error: int)

  /** Where a grammar branch leaves the parser: with its slots, or thrown. */
  datatype Step = Continue(slots: Slots) | Threw

  /** The slots before any branch runs. */
  const Start := Slots(Null, Null, Val(SecondsPerDay), 0)

  /** Token `i` of the split expression. A missing token is `undefined`,
      which the regular-expression tests and the string concatenation read
      as the text "undefined", and which equals neither "am" nor "pm". */
  function TokenAt(tokens: seq<string>, i: nat): string {
    if i < |tokens| then tokens[i] else "undefined"
  }

  /** The `every <quantity> <unit>` grammar. `local` is the local clock,
      which the `plain` forms read whatever the configured mode. */
  function EveryBranch(tokens: seq<string>, local: TimeOfDay): (r: Step)
    requires |tokens| >= 2
    ensures r.Continue? ==> r.slots.error in {0, 3, 4}
  {
    var quantity := tokens[1];
    match UnitOf(TokenAt(tokens, 2))
    case None => Continue(Start.(error := 3))
    case Some(u) =>
      if !IsAnyNumber(quantity) then
        if IsPlain(quantity) then
          match u
          case Minute =>
            Continue(Slots(Val(60 - local.s), Val(2 * 60 - local.s), Val(60), 0))
          case Hour =>
            Continue(Slots(Val(3600 - 60 * local.m - local.s), Val(2 * 3600 - 60 * local.m - local.s), Val(3600), 0))
          case _ => Threw
        else Continue(Start.(error := 4))
      else
        var amount := Times(ToNumber(quantity), Period(u));
        Continue(Slots(amount, Plus(amount, amount), amount, 0))
  }

  /** The target time text `handleAt` builds, or why it builds none. */
  datatype TargetText = NoPattern | NoTime | Time(text: string)

  /** Inside a 12-hour clock match the first token holds the `h:mm` part:
      its text before the first colon is the one- or two-digit hour. */
  lemma ClockTimeHourField(a: string, b: string)
    requires IsClockTime(a + " " + b)
    ensures |Split(a, ':')| >= 2
    ensures 1 <= |Split(a, ':')[0]| <= 2 && AllDigits(Split(a, ':')[0])
    ensures 1 <= DigitsValue(Split(a, ':')[0]) <= 12
    ensures ToNumber(Split(a, ':')[0]) == Val(DigitsValue(Split(a, ':')[0]))
  {
    var j := a + " " + b;
    var k := if ClockTimeAt(j, 1) then 1 else 2;
    assert ClockTimeAt(j, k);
    assert j[k] == ':' && IsDigit(j[k + 2]) && IsDigit(j[k - 1]);
    assert j[|a|] == ' ';
    assert k + 2 < |a|;
    assert a[..k] == j[..k];
    assert ':' !in a[..k];
    SplitAtFirst(a, k, ':');
    ShortDigitsValue(a[..k]);
    ToNumberOfShortDigits(a[..k]);
  }

  /** The time text of `handleAt` from the second and third tokens: a 12-hour
      match becomes `0h:mm` (am, padded to five characters) or
      `(h+12):mm:00` (pm); otherwise a 24-hour match becomes `hh:mm:00`. */
  function TargetTextOf(a: string, b: string): TargetText {
    if !IsClockTime(a + " " + b) then
      if IsFullTime(a) then Time(a + ":00") else NoPattern
    else if b == "am" then
      Time(if |a| != 5 then "0" + a else a)
    else if b == "pm" then
      ClockTimeHourField(a, b);
      var fields := Split(a, ':');
      Time(NatToString(ToNumber(fields[0]).v + 12) + ":" + fields[1] + ":00")
    else NoTime
  }

  /** `diff < 0 ? diff + day : diff` on a slot value. */
  function WrapNegative(diff: Num): Num {
    if diff.Val? && diff.v < 0 then Plus(diff, Val(SecondsPerDay)) else diff
  }

  /** The slots `handleAt` fills from the target's hour, minute and second
      fields: each is subtracted from the snapshot's field, the differences
      are combined into seconds, and a negative distance is moved one day
      ahead. */
  function SlotsOfFields(hour: Num, minute: Num, second: Num, now: TimeOfDay): Slots {
    var dh := Minus(hour, Val(now.h));
    var dm := Minus(minute, Val(now.m));
    var ds := Minus(second, Val(now.s));
    var first := WrapNegative(Plus(Plus(ds, Times(dm, 60)), Times(dh, 3600)));
    Slots(first, Plus(first, Val(SecondsPerDay)), Val(SecondsPerDay), 0)
  }

  /** The fields of a target time text: `substr` at 0, 3 and 6, read by
      `Number`. */
  function SlotsOfTime(time: string, now: TimeOfDay): Slots {
    SlotsOfFields(ToNumber(Substr(time, 0, 2)), ToNumber(Substr(time, 3, 2)), ToNumber(Substr(time, 6, 2)), now)
  }

  /** The `at|@ <time>` grammar (`handleAt`) with tokens `a` and `b` and
      the snapshot time of day `now`. */
  function AtBranch(a: string, b: string, now: TimeOfDay): (r: Slots)
    ensures r.error in {0, 2, 5}
  {
    match TargetTextOf(a, b)
    case NoPattern => Start.(error := 2)
    case NoTime => Start.(error := 5)
    case Time(time) => if time == "" then Start.(error := 5) else SlotsOfTime(time, now)
  }

  /** The final check: the slots become a schedule only when all three are
      truthy and no error code was set; otherwise the parser throws with the
      last error code. */
  function Finish(step: Step): Outcome {
    match step
    case Threw => InternalError
    case Continue(s) =>
      if s.error != 0 then Failed(s.error)
      else if Falsy(s.first) || Falsy(s.next) || Falsy(s.interval) then Failed(0)
      else if !s.first.Val? || !s.next.Val? || !s.interval.Val? then Unmodelled
      else Parsed(Schedule(s.first.v, s.next.v, s.interval.v, 0))
  }

  /** `parseExpression` on the already split, lower-cased tokens. */
  function ParseTokens(tokens: seq<string>, clock: HostClock, mode: Mode): Outcome {
    if |tokens| > 3 || |tokens| < 2 then Finish(Continue(Start.(error := 1)))
    else if IsEvery(tokens[0]) then Finish(EveryBranch(tokens, clock.local))
    else if IsAt(tokens[0]) then
      Finish(Continue(AtBranch(tokens[1], TokenAt(tokens, 2), Snapshot(clock, mode))))
    else Finish(Continue(Start))
  }

  /** `_parseText`: lower-case the expression, split it on single spaces and
      parse the tokens. */
  function Parse(expression: string, clock: HostClock, mode: Mode): Outcome {
    ParseTokens(Split(Lower(expression), ' '), clock, mode)
  }
}

=== FILE: parser_properties.dfy ===
/** What the schedule parser promises: which inputs fail with which error
    code, what each grammar computes, and the behaviours of the code as
    written that a reader might not expect. */
module ParserProperties {
  import opened Text
  import opened Optional
  import opened JsNumber
  import opened Tokens
  import opened Clock
  import opened Parser

  // ---------------------------------------------------------------------
  // Error codes
  // ---------------------------------------------------------------------

  /** Code 1 is reported exactly when the expression does not split into
      two or three tokens. */
  lemma TokenCountError(tokens: seq<string>, clock: HostClock, mode: Mode)
    ensures ParseTokens(tokens, clock, mode) == Failed(1) <==> (|tokens| < 2 || |tokens| > 3)
  {
  }

  /** On the whole expression: code 1 exactly when the expression holds
      other than one or two spaces. */
  lemma ExpressionCountError(expression: string, clock: HostClock, mode: Mode)
    ensures Parse(expression, clock, mode) == Failed(1) <==> Count(expression, ' ') !in {1, 2}
  {
    LowerKeepsSpaces(expression);
    SplitPieces(Lower(expression), ' ');
    TokenCountError(Split(Lower(expression), ' '), clock, mode);
  }

  /** An expression written as lower-case words separated by single spaces
      is parsed as exactly those words. */
  lemma ParseOfWords(words: seq<string>, clock: HostClock, mode: Mode)
    requires |words| >= 1
    requires forall i :: 0 <= i < |words| ==> ' ' !in words[i] && NoUpperAscii(words[i])
    ensures Parse(Join(words, ' '), clock, mode) == ParseTokens(words, clock, mode)
  {
    JoinNoUpperAscii(words, ' ');
    LowerOfLowercase(Join(words, ' '));
    SplitJoin(words, ' ');
  }

  /** Code 3 is reported exactly for an `every` expression whose unit token
      (possibly the missing third token) names no unit. The unit is checked
      before the quantity. */
  lemma UnitError(tokens: seq<string>, clock: HostClock, mode: Mode)
    ensures ParseTokens(tokens, clock, mode) == Failed(3) <==>
      (2 <= |tokens| <= 3 && IsEvery(tokens[0]) && UnitOf(TokenAt(tokens, 2)).None?)
  {
    if 2 <= |tokens| <= 3 && IsAt(tokens[0]) {
      KeywordsExclusive(tokens[0]);
    }
  }

  /** Code 4 is reported exactly for an `every` expression with a valid unit
      whose quantity token is neither a number nor `plain`. */
  lemma QuantityError(tokens: seq<string>, clock: HostClock, mode: Mode)
    ensures ParseTokens(tokens, clock, mode) == Failed(4) <==>
      (2 <= |tokens| <= 3 && IsEvery(tokens[0]) && UnitOf(TokenAt(tokens, 2)).Some?
       && !IsAnyNumber(tokens[1]) && !IsPlain(tokens[1]))
  {
    if 2 <= |tokens| <= 3 && IsAt(tokens[0]) {
      KeywordsExclusive(tokens[0]);
    }
  }

  /** Code 2 is reported exactly for an `at` expression whose time matches
      neither the 12-hour nor the 24-hour pattern. */
  lemma TimePatternError(tokens: seq<string>, clock: HostClock, mode: Mode)
    ensures ParseTokens(tokens, clock, mode) == Failed(2) <==>
      (2 <= |tokens| <= 3 && IsAt(tokens[0])
       && !IsClockTime(tokens[1] + " " + TokenAt(tokens, 2)) && !IsFullTime(tokens[1]))
  {
    if 2 <= |tokens| <= 3 && IsAt(tokens[0]) {
      KeywordsExclusive(tokens[0]);
    }
  }

  /** The text `handleAt` builds is never empty. */
  lemma TargetTextNotEmpty(a: string, b: string)
    ensures TargetTextOf(a, b).Time? ==> TargetTextOf(a, b).text != ""
  {
  }

  /** Code 5 is reported exactly for an `at` expression whose tokens match
      the 12-hour pattern while the third token is not literally `am` or
      `pm`, such as the two-token `at 3:30pm`. */
  lemma NoTimeError(tokens: seq<string>, clock: HostClock, mode: Mode)
    ensures ParseTokens(tokens, clock, mode) == Failed(5) <==>
      (2 <= |tokens| <= 3 && IsAt(tokens[0])
       && IsClockTime(tokens[1] + " " + TokenAt(tokens, 2))
       && TokenAt(tokens, 2) != "am" && TokenAt(tokens, 2) != "pm")
  {
    if 2 <= |tokens| <= 3 && IsAt(tokens[0]) {
      KeywordsExclusive(tokens[0]);
      TargetTextNotEmpty(tokens[1], TokenAt(tokens, 2));
    }
  }

  /** The internal error is thrown exactly for `every plain` with a valid
      unit other than minute or hour. */
  lemma PlainUnitError(tokens: seq<string>, clock: HostClock, mode: Mode)
    ensures ParseTokens(tokens, clock, mode) == InternalError <==>
      (2 <= |tokens| <= 3 && IsEvery(tokens[0]) && IsPlain(tokens[1])
       && UnitOf(TokenAt(tokens, 2)) in {Some(Second), Some(Day), Some(Week)})
  {
    if 2 <= |tokens| <= 3 && IsPlain(tokens[1]) {
      PlainIsNotNumber(tokens[1]);
    }
  }

  /** A first token that is neither keyword leaves every slot unset, so the
      parser throws with the default code 0. */
  lemma UnknownKeyword(tokens: seq<string>, clock: HostClock, mode: Mode)
    requires 2 <= |tokens| <= 3 && !IsEvery(tokens[0]) && !IsAt(tokens[0])
    ensures ParseTokens(tokens, clock, mode) == Failed(0)
  {
  }

  /** Every failure carries one of the codes 0 to 5. */
  lemma FailureCodes(tokens: seq<string>, clock: HostClock, mode: Mode)
    ensures ParseTokens(tokens, clock, mode).Failed? ==> 0 <= ParseTokens(tokens, clock, mode).code <= 5
  {
  }

  // ---------------------------------------------------------------------
  // Successful schedules
  // ---------------------------------------------------------------------

  /** A number token starts with a digit. */
  lemma NumberTokenStartsWithDigit(t: string)
    requires IsAnyNumber(t)
    ensures |t| > 0 && IsDigit(t[0])
  {
    LeadingWordShape(t);
    assert LeadingWord(t)[0] == t[0];
  }

  /** Every schedule the parser returns reports error 0, has a positive
      interval and non-zero first and second delays, and its second delay is the first
      plus one interval: the runs it describes are evenly spaced. */
  lemma ParsedShape(tokens: seq<string>, clock: HostClock, mode: Mode)
    ensures var r := ParseTokens(tokens, clock, mode);
      r.Parsed? ==>
        && r.schedule.error == 0
        && r.schedule.firstExec != 0 && r.schedule.nextExec != 0
        && r.schedule.intervalInSec > 0
        && r.schedule.nextExec == r.schedule.firstExec + r.schedule.intervalInSec
  {
    if 2 <= |tokens| <= 3 {
      if IsEvery(tokens[0]) {
        var step := EveryBranch(tokens, clock.local);
        EveryBranchEvenlySpaced(tokens, clock.local);
        if step.Continue? {
          FinishShape(step.slots);
        }
      } else if IsAt(tokens[0]) {
        FinishShape(AtBranch(tokens[1], TokenAt(tokens, 2), Snapshot(clock, mode)));
      }
    }
  }

  /** The second slot is the first plus the interval: as JavaScript adds
      them, or, for slots the grammar writes as integers directly, as
      integers. */
  predicate SpacedByInterval(slots: Slots) {
    || slots.next == Plus(slots.first, slots.interval)
    || (slots.first.Val? && slots.interval.Val? && slots.next == Val(slots.first.v + slots.interval.v))
  }

  /** The `every` grammar sets the second delay to the first plus the
      interval, and the interval is never negative. */
  lemma EveryBranchEvenlySpaced(tokens: seq<string>, local: TimeOfDay)
    requires |tokens| >= 2
    ensures var step := EveryBranch(tokens, local);
      step.Continue? && step.slots.error == 0 ==>
        && SpacedByInterval(step.slots)
        && (step.slots.interval.Val? ==> step.slots.interval.v >= 0)
  {
    var q := tokens[1];
    match UnitOf(TokenAt(tokens, 2))
    case None =>
    case Some(u) =>
      if IsAnyNumber(q) {
        NumberTokenStartsWithDigit(q);
        ToNumberOfLeadingDigit(q);
        TimesNonNegative(ToNumber(q), Period(u));
      }
  }

  lemma TimesNonNegative(n: Num, k: nat)
    requires n.Val? ==> n.v >= 0
    ensures Times(n, k).Val? ==> Times(n, k).v >= 0
  {
    if n.Val? {
      assert n.v * k >= 0;
    }
  }

  /** Slots whose second delay is the first plus a non-negative interval
      pass the final check only as such a schedule. */
  lemma FinishShape(slots: Slots)
    requires slots.error == 0 ==> SpacedByInterval(slots)
    requires slots.error == 0 && slots.interval.Val? ==> slots.interval.v >= 0
    ensures var r := Finish(Continue(slots));
      r.Parsed? ==>
        && r.schedule.error == 0
        && r.schedule.firstExec != 0 && r.schedule.nextExec != 0
        && r.schedule.intervalInSec > 0
        && r.schedule.nextExec == r.schedule.firstExec + r.schedule.intervalInSec
  {
  }

  /** `every N <unit>` with a digit-string quantity N: the interval is N
      units, the first run comes after one interval and the second after
      two; a quantity of zero fails with the default code 0, and a schedule
      whose second delay exceeds 2^53 seconds is outside the model. */
  lemma EveryNumber(tokens: seq<string>, u: Unit, clock: HostClock, mode: Mode)
    requires |tokens| == 3 && IsEvery(tokens[0]) && MatchesUnit(u, tokens[2])
    requires |tokens[1]| > 0 && AllDigits(tokens[1])
    ensures var n := DigitsValue(tokens[1]);
      ParseTokens(tokens, clock, mode)
      == if n == 0 then Failed(0)
         else if 2 * (n * Period(u)) <= MaxExact then Parsed(Schedule(n * Period(u), 2 * (n * Period(u)), n * Period(u), 0))
         else Unmodelled
  {
    var n := DigitsValue(tokens[1]);
    EveryTokens(tokens, clock, mode);
    EveryNumberBranch(tokens, u, clock.local);
    FinishEveryNumber(n, Period(u));
  }

  /** A count in a unit that is k times a smaller unit has the outcome of
      k times that count in the smaller unit, whatever the clock: the
      schedules agree, and so do the failures and the unmodelled cases. */
  lemma EveryUnitConversion(t1: seq<string>, t2: seq<string>, u: Unit, v: Unit, k: nat, clock: HostClock, mode: Mode)
    requires Period(u) == k * Period(v)
    requires |t1| == 3 && IsEvery(t1[0]) && MatchesUnit(u, t1[2]) && |t1[1]| > 0 && AllDigits(t1[1])
    requires |t2| == 3 && IsEvery(t2[0]) && MatchesUnit(v, t2[2]) && |t2[1]| > 0 && AllDigits(t2[1])
    requires DigitsValue(t2[1]) == k * DigitsValue(t1[1])
    ensures ParseTokens(t1, clock, mode) == ParseTokens(t2, clock, mode)
  {
    var n, m := DigitsValue(t1[1]), DigitsValue(t2[1]);
    ScaledCount(k, n, Period(v));
    var x := n * Period(u);
    assert m * Period(v) == x;
    EveryNumber(t1, u, clock, mode);
    EveryNumber(t2, v, clock, mode);
  }

  /** Scaling a count by k and its unit by 1/k keeps the product, and a
      scaled count is zero only when the count is. */
  lemma ScaledCount(k: nat, n: nat, p: nat)
    requires k * p > 0
    ensures (k * n) * p == n * (k * p)
    ensures k * n == 0 <==> n == 0
  {
  }

  /** `every N hours` has the outcome of `every 60N minutes`, for every N. */
  lemma EveryHoursAsMinutes(n: nat, clock: HostClock, mode: Mode)
    ensures ParseTokens(["every", NatToString(n), "hours"], clock, mode)
         == ParseTokens(["every", NatToString(60 * n), "minutes"], clock, mode)
  {
    var t1: seq<string> := ["every", NatToString(n), "hours"];
    var t2: seq<string> := ["every", NatToString(60 * n), "minutes"];
    assert IsEvery(t1[0]) && IsEvery(t2[0]) by {
      WordPrefixIsLeadingWord("every", "every");
    }
    assert MatchesUnit(Hour, t1[2]) by {
      WordPrefixIsLeadingWord("hours", "hours");
    }
    assert MatchesUnit(Minute, t2[2]) by {
      WordPrefixIsLeadingWord("minutes", "minutes");
    }
    NatToStringValue(n);
    NatToStringValue(60 * n);
    EveryUnitConversion(t1, t2, Hour, Minute, 60, clock, mode);
  }

  /** `every N days` has the outcome of `every 24N hours`, for every N. */
  lemma EveryDaysAsHours(n: nat, clock: HostClock, mode: Mode)
    ensures ParseTokens(["every", NatToString(n), "days"], clock, mode)
         == ParseTokens(["every", NatToString(24 * n), "hours"], clock, mode)
  {
    var t1: seq<string> := ["every", NatToString(n), "days"];
    var t2: seq<string> := ["every", NatToString(24 * n), "hours"];
    assert IsEvery(t1[0]) && IsEvery(t2[0]) by {
      WordPrefixIsLeadingWord("every", "every");
    }
    assert MatchesUnit(Day, t1[2]) by {
      WordPrefixIsLeadingWord("days", "days");
    }
    assert MatchesUnit(Hour, t2[2]) by {
      WordPrefixIsLeadingWord("hours", "hours");
    }
    NatToStringValue(n);
    NatToStringValue(24 * n);
    EveryUnitConversion(t1, t2, Day, Hour, 24, clock, mode);
  }

  /** `every N weeks` has the outcome of `every 7N days`, for every N. */
  lemma EveryWeeksAsDays(n: nat, clock: HostClock, mode: Mode)
    ensures ParseTokens(["every", NatToString(n), "weeks"], clock, mode)
         == ParseTokens(["every", NatToString(7 * n), "days"], clock, mode)
  {
    var t1: seq<string> := ["every", NatToString(n), "weeks"];
    var t2: seq<string> := ["every", NatToString(7 * n), "days"];
    assert IsEvery(t1[0]) && IsEvery(t2[0]) by {
      WordPrefixIsLeadingWord("every", "every");
    }
    assert MatchesUnit(Week, t1[2]) by {
      WordPrefixIsLeadingWord("weeks", "weeks");
    }
    assert MatchesUnit(Day, t2[2]) by {
      WordPrefixIsLeadingWord("days", "days");
    }
    NatToStringValue(n);
    NatToStringValue(7 * n);
    EveryUnitConversion(t1, t2, Week, Day, 7, clock, mode);
  }

  /** An `every` expression is decided by the `every` grammar on the local
      clock. */
  lemma EveryTokens(tokens: seq<string>, clock: HostClock, mode: Mode)
    requires 2 <= |tokens| <= 3 && IsEvery(tokens[0])
    ensures ParseTokens(tokens, clock, mode) == Finish(EveryBranch(tokens, clock.local))
  {
  }

  /** The `every` grammar with a digit-string quantity N of unit `u`: the
      slots hold N units, twice that and N units, each exact up to 2^53. */
  lemma EveryNumberBranch(tokens: seq<string>, u: Unit, local: TimeOfDay)
    requires |tokens| == 3 && MatchesUnit(u, tokens[2])
    requires |tokens[1]| > 0 && AllDigits(tokens[1])
    ensures var x := DigitsValue(tokens[1]) * Period(u);
      EveryBranch(tokens, local) == Continue(Slots(Exact(x), Exact(x + x), Exact(x), 0))
  {
    UnitOfMatches(u, tokens[2]);
    DigitsAreNumber(tokens[1]);
    ToNumberOfDigits(tokens[1]);
  }

  /** The final check on `every` slots of `n` times `p` seconds. */
  lemma FinishEveryNumber(n: nat, p: nat)
    requires p > 0
    ensures var x := n * p;
      Finish(Continue(Slots(Exact(x), Exact(x + x), Exact(x), 0)))
      == if n == 0 then Failed(0) else if 2 * x <= MaxExact then Parsed(Schedule(x, 2 * x, x, 0)) else Unmodelled
  {
    if n != 0 {
      assert n * p >= p;
    }
  }

  /** `every plain minute`: the first run lands on the next whole minute of
      the local clock, between 1 and 60 seconds ahead, then every minute. */
  lemma EveryPlainMinute(tokens: seq<string>, clock: HostClock, mode: Mode)
    requires |tokens| == 3 && IsEvery(tokens[0]) && IsPlain(tokens[1])
    requires MatchesUnit(Minute, tokens[2])
    requires clock.local.Valid()
    ensures var r := ParseTokens(tokens, clock, mode);
      && r.Parsed?
      && 1 <= r.schedule.firstExec <= 60
      && (SecondsOfDay(clock.local) + r.schedule.firstExec) % 60 == 0
      && r.schedule.intervalInSec == 60
      && r.schedule.nextExec == r.schedule.firstExec + 60
  {
    UnitOfMatches(Minute, tokens[2]);
    PlainIsNotNumber(tokens[1]);
    var t := clock.local;
    assert SecondsOfDay(t) + (60 - t.s) == 60 * (60 * t.h + t.m + 1);
  }

  /** `every plain hour`: the first run lands on the next whole hour of the
      local clock, between 1 and 3600 seconds ahead, then every hour. */
  lemma EveryPlainHour(tokens: seq<string>, clock: HostClock, mode: Mode)
    requires |tokens| == 3 && IsEvery(tokens[0]) && IsPlain(tokens[1])
    requires MatchesUnit(Hour, tokens[2])
    requires clock.local.Valid()
    ensures var r := ParseTokens(tokens, clock, mode);
      && r.Parsed?
      && 1 <= r.schedule.firstExec <= 3600
      && (SecondsOfDay(clock.local) + r.schedule.firstExec) % 3600 == 0
      && r.schedule.intervalInSec == 3600
      && r.schedule.nextExec == r.schedule.firstExec + 3600
  {
    UnitOfMatches(Hour, tokens[2]);
    PlainIsNotNumber(tokens[1]);
    var t := clock.local;
    assert SecondsOfDay(t) + (3600 - 60 * t.m - t.s) == 3600 * (t.h + 1);
  }

  /** The `every` grammar reads only the local clock: the configured mode and
      the UTC clock make no difference, also for `plain`. */
  lemma EveryReadsLocalClock(tokens: seq<string>, local: TimeOfDay, utc1: TimeOfDay, utc2: TimeOfDay, mode1: Mode, mode2: Mode)
    requires 2 <= |tokens| <= 3 && IsEvery(tokens[0])
    ensures ParseTokens(tokens, HostClock(local, utc1), mode1) == ParseTokens(tokens, HostClock(local, utc2), mode2)
  {
  }

  // ---------------------------------------------------------------------
  // The `at` grammar
  // ---------------------------------------------------------------------

  /** An exact 24-hour token `hh:mm` (hours 00 to 23). */
  predicate IsTwentyFourHourToken(a: string) {
    |a| == 5 && Hour24At(a, 2) && MinuteFieldAt(a, 2)
  }

  /** An exact 12-hour token `h:mm` or `hh:mm` (hours 1 to 12). */
  predicate IsTwelveHourToken(a: string) {
    (|a| == 4 || |a| == 5) && Hour12At(a, |a| - 3) && MinuteFieldAt(a, |a| - 3)
  }

  /** The hour written in a 24- or 12-hour token. */
  function HourOf(a: string): nat
    requires IsTwentyFourHourToken(a) || IsTwelveHourToken(a)
  {
    DigitsValue(a[..|a| - 3])
  }

  /** The minute written in a 24- or 12-hour token. */
  function MinuteOf(a: string): nat
    requires IsTwentyFourHourToken(a) || IsTwelveHourToken(a)
  {
    DigitsValue(a[|a| - 2..])
  }

  /** The hour and minute fields of a time token are digit strings around
      its one colon. */
  lemma TokenDigits(a: string)
    requires IsTwentyFourHourToken(a) || IsTwelveHourToken(a)
    ensures AllDigits(a[..|a| - 3]) && 1 <= |a[..|a| - 3]| <= 2
    ensures AllDigits(a[|a| - 2..]) && |a[|a| - 2..]| == 2
    ensures a[|a| - 3] == ':'
  {
  }

  lemma TokenFields(a: string)
    requires IsTwentyFourHourToken(a) || IsTwelveHourToken(a)
    ensures IsTwentyFourHourToken(a) ==> HourOf(a) <= 23
    ensures IsTwelveHourToken(a) ==> 1 <= HourOf(a) <= 12
    ensures MinuteOf(a) <= 59
  {
    ShortDigitsValue(a[..|a| - 3]);
    ShortDigitsValue(a[|a| - 2..]);
  }

  /** With nothing after it, a 24-hour token never matches the 12-hour
      pattern: the missing third token reads as "undefined". */
  lemma TwentyFourHourIsNotClockTime(a: string, b: string)
    requires IsTwentyFourHourToken(a) && |b| > 0 && b[0] != 'a' && b[0] != 'p' && !IsJsSpace(b[0])
    ensures !IsClockTime(a + " " + b)
  {
    var j := a + " " + b;
    assert j[1] == a[1] && IsDigit(a[1]);
    assert j[5] == ' ' && j[6] == b[0];
    assert j[5..7][1] == b[0];
    if 8 <= |j| {
      assert j[6..8][0] == b[0];
    }
  }

  /** The reference distance from `now` to the time of day `target` (in
      seconds since midnight): how far ahead it lies, wrapping past
      midnight, zero when they coincide. */
  function DistanceAhead(target: int, now: TimeOfDay): int {
    (target - SecondsOfDay(now)) % SecondsPerDay
  }

  /** The day wrap of `handleAt`: a distance less than a day behind moves
      into the coming day, one further behind is moved by one day only and
      stays negative, and anything else is kept. */
  lemma WrapNegativeDistance(diff: Num)
    ensures !(diff.Val? && diff.v < 0) ==> WrapNegative(diff) == diff
    ensures diff.Val? && -SecondsPerDay <= diff.v < 0 ==>
      WrapNegative(diff) == Val(diff.v + SecondsPerDay) && diff.v + SecondsPerDay < SecondsPerDay
    ensures diff.Val? && diff.v < -SecondsPerDay && WrapNegative(diff).Val? ==> WrapNegative(diff).v < 0
  {
  }

  /** The slots `handleAt` fills once the target time reads as hour `h`,
      minute `m` and second `s`: the first run lies `h:m:s` minus the
      snapshot time ahead, one day later when that is negative. Each field
      is a two-character text read by `Number`, so as an integer it lies
      between -9 and 99. */
  lemma IntegerFieldsSlots(h: int, m: int, s: int, now: TimeOfDay)
    requires -9 <= h <= 99 && -9 <= m <= 99 && -9 <= s <= 99 && now.Valid()
    ensures var raw := 3600 * h + 60 * m + s - SecondsOfDay(now);
      var first := if raw < 0 then raw + SecondsPerDay else raw;
      SlotsOfFields(Val(h), Val(m), Val(s), now) == Slots(Val(first), Val(first + SecondsPerDay), Val(SecondsPerDay), 0)
  {
  }

  /** An `at` expression is decided by `handleAt` on its second and third
      tokens and the snapshot clock of the configured mode. */
  lemma AtTokens(tokens: seq<string>, clock: HostClock, mode: Mode)
    requires 2 <= |tokens| <= 3 && IsAt(tokens[0])
    ensures ParseTokens(tokens, clock, mode)
            == Finish(Continue(AtBranch(tokens[1], TokenAt(tokens, 2), Snapshot(clock, mode))))
  {
    KeywordsExclusive(tokens[0]);
  }

  /** A two-digit field of a time text reads as its digits. */
  lemma DigitFieldNumber(time: string, start: nat)
    requires start + 2 <= |time| && AllDigits(time[start..start + 2])
    ensures ToNumber(Substr(time, start, 2)) == Val(DigitsValue(time[start..start + 2]))
  {
    ToNumberOfShortDigits(time[start..start + 2]);
  }

  /** The seconds field of `hh:mm` is empty and that of `hh:mm:00` is `00`;
      both read as zero. */
  lemma SecondFieldNumber(time: string)
    requires |time| == 5 || (|time| == 8 && time[5..] == ":00")
    ensures ToNumber(Substr(time, 6, 2)) == Val(0)
  {
    if |time| == 8 {
      assert Substr(time, 6, 2) == "00";
      ToNumberOfShortDigits("00");
    }
  }

  /** A time text `hh:mm` or `hh:mm:00` with digit fields reads as those
      digits, with second zero. */
  lemma DigitTimeSlots(time: string, now: TimeOfDay)
    requires |time| == 5 || (|time| == 8 && time[5..] == ":00")
    requires AllDigits(time[..2]) && AllDigits(time[3..5])
    ensures SlotsOfTime(time, now)
            == SlotsOfFields(Val(DigitsValue(time[..2])), Val(DigitsValue(time[3..5])), Val(0), now)
  {
    assert time[0..2] == time[..2];
    DigitFieldNumber(time, 0);
    DigitFieldNumber(time, 3);
    SecondFieldNumber(time);
  }

  /** What the final check makes of a daily target `d` seconds ahead: a
      zero delay is falsy and fails with code 0. */
  function DailyOutcome(d: int): Outcome {
    if d == 0 then Failed(0) else Parsed(Schedule(d, d + SecondsPerDay, SecondsPerDay, 0))
  }

  /** The final check on a daily target `h:m:00` within the day: the delay
      is the distance ahead, below one day. */
  lemma FinishDaily(h: int, m: int, now: TimeOfDay)
    requires 0 <= h <= 23 && 0 <= m <= 59 && now.Valid()
    ensures 0 <= DistanceAhead(3600 * h + 60 * m, now) < SecondsPerDay
    ensures Finish(Continue(SlotsOfFields(Val(h), Val(m), Val(0), now)))
            == DailyOutcome(DistanceAhead(3600 * h + 60 * m, now))
  {
    var raw := 3600 * h + 60 * m - SecondsOfDay(now);
    assert -SecondsPerDay < raw < SecondsPerDay;
    var first := if raw < 0 then raw + SecondsPerDay else raw;
    assert DistanceAhead(3600 * h + 60 * m, now) == first;
    assert SlotsOfFields(Val(h), Val(m), Val(0), now)
           == Slots(Val(first), Val(first + SecondsPerDay), Val(SecondsPerDay), 0) by {
      IntegerFieldsSlots(h, m, 0, now);
    }
  }

  /** `handleAt` on a 24-hour token that the 12-hour pattern does not
      claim: the target is the token with `:00` appended, read field by
      field. */
  lemma TwentyFourHourBranch(a: string, b: string, now: TimeOfDay)
    requires IsTwentyFourHourToken(a) && !IsClockTime(a + " " + b)
    ensures AtBranch(a, b, now) == SlotsOfFields(Val(HourOf(a)), Val(MinuteOf(a)), Val(0), now)
  {
    TwentyFourHourTarget(a, b);
    BranchOfTime(a, b, a + ":00", now);
    TwentyFourHourTextSlots(a, now);
  }

  /** `handleAt` on a 24-hour `hh:mm` followed by `:` and more text. The
      pattern ends in `\b`, which holds before the colon, so the token is
      accepted whole, and the 12-hour pattern cannot claim it. The seconds
      field of the target text is then the two characters after that colon,
      read by `Number`. */
  lemma SecondsTailBranch(a: string, b: string, now: TimeOfDay)
    requires 8 <= |a| && IsTwentyFourHourToken(a[..5]) && a[5] == ':'
    ensures AtBranch(a, b, now)
            == SlotsOfFields(Val(HourOf(a[..5])), Val(MinuteOf(a[..5])), ToNumber(a[6..8]), now)
  {
    SecondsTailTarget(a, b);
    BranchOfTime(a, b, a + ":00", now);
    SecondsTailSlots(a, now);
  }

  /** The text `handleAt` builds for `hh:mm:..`: the token with `:00`
      appended. */
  lemma SecondsTailTarget(a: string, b: string)
    requires 8 <= |a| && IsTwentyFourHourToken(a[..5]) && a[5] == ':'
    ensures TargetTextOf(a, b) == Time(a + ":00")
  {
    var j := a + " " + b;
    assert j[1] == a[1] && j[2] == a[2] && j[5] == a[5];
    assert !ClockTimeAt(j, 1) && !ClockTimeAt(j, 2);
    assert FullTimeAt(a, 2);
  }

  /** The fields of `hh:mm:..:00`: the token's hour and minute, and the
      two characters after the second colon. */
  lemma SecondsTailSlots(a: string, now: TimeOfDay)
    requires 8 <= |a| && IsTwentyFourHourToken(a[..5])
    ensures SlotsOfTime(a + ":00", now)
            == SlotsOfFields(Val(HourOf(a[..5])), Val(MinuteOf(a[..5])), ToNumber(a[6..8]), now)
  {
    var p, time := a[..5], a + ":00";
    TokenDigits(p);
    assert Substr(time, 0, 2) == p[..2];
    assert Substr(time, 3, 2) == p[|p| - 2..];
    assert Substr(time, 6, 2) == a[6..8];
    ToNumberOfShortDigits(p[..2]);
    ToNumberOfShortDigits(p[|p| - 2..]);
  }

  /** `at hh:mm:..` whose seconds field reads as the integer `sec`: the
      first run lies `hh:mm:sec` minus the snapshot ahead, one day later
      when that is negative. */
  lemma SecondsTailValue(a: string, b: string, now: TimeOfDay, sec: int)
    requires 8 <= |a| && IsTwentyFourHourToken(a[..5]) && a[5] == ':'
    requires ToNumber(a[6..8]) == Val(sec) && -9 <= sec <= 99 && now.Valid()
    ensures var raw := TokenSeconds(a[..5]) + sec - SecondsOfDay(now);
      var first := if raw < 0 then raw + SecondsPerDay else raw;
      AtBranch(a, b, now) == Slots(Val(first), Val(first + SecondsPerDay), Val(SecondsPerDay), 0)
  {
    var p := a[..5];
    var h, m := HourOf(p), MinuteOf(p);
    var raw := TokenSeconds(p) + sec - SecondsOfDay(now);
    var first := if raw < 0 then raw + SecondsPerDay else raw;
    var slots := Slots(Val(first), Val(first + SecondsPerDay), Val(SecondsPerDay), 0);
    assert SlotsOfFields(Val(h), Val(m), Val(sec), now) == slots by {
      TokenFields(p);
      IntegerFieldsSlots(h, m, sec, now);
    }
    SecondsTailBranch(a, b, now);
  }

  /** `at hh:mm:ss` with a two-digit tail: the tail sets the seconds of the
      target, and the first run lies `hh:mm:ss` minus the snapshot ahead,
      one day later when that is negative. */
  lemma SecondsTailDigits(a: string, b: string, now: TimeOfDay)
    requires 8 <= |a| && IsTwentyFourHourToken(a[..5]) && a[5] == ':' && AllDigits(a[6..8])
    requires now.Valid()
    ensures var raw := TokenSeconds(a[..5]) + DigitsValue(a[6..8]) - SecondsOfDay(now);
      var first := if raw < 0 then raw + SecondsPerDay else raw;
      AtBranch(a, b, now) == Slots(Val(first), Val(first + SecondsPerDay), Val(SecondsPerDay), 0)
  {
    ToNumberOfShortDigits(a[6..8]);
    SecondsTailValue(a, b, now, DigitsValue(a[6..8]));
  }

  /** `at 10:30:45` at 10:00:00, whatever the third token: the first run
      comes 30 minutes 45 seconds ahead. */
  lemma SecondsTailExample(b: string)
    ensures AtBranch("10:30:45", b, TimeOfDay(10, 0, 0))
            == Slots(Val(1845), Val(1845 + SecondsPerDay), Val(SecondsPerDay), 0)
  {
    var a, now := "10:30:45", TimeOfDay(10, 0, 0);
    assert 8 <= |a| && a[5] == ':' && IsTwentyFourHourToken(a[..5]) && TokenSeconds(a[..5]) == 37800 by {
      SecondsTailFields(a, 10, 30);
    }
    assert AllDigits(a[6..8]) && DigitsValue(a[6..8]) == 45 by {
      assert a[6..8] == "45";
      ShortDigitsValue("45");
    }
    assert SecondsOfDay(now) == 36000;
    SecondsTailDigits(a, b, now);
  }

  /** `at 00:00:-9` at 23:59:59, whatever the third token: the seconds
      field `-9` reads as -9, the distance wraps forward only once, and the
      first delay is negative. */
  lemma NegativeSecondsExample(b: string)
    ensures AtBranch("00:00:-9", b, TimeOfDay(23, 59, 59))
            == Slots(Val(-8), Val(-8 + SecondsPerDay), Val(SecondsPerDay), 0)
  {
    var a, now := "00:00:-9", TimeOfDay(23, 59, 59);
    assert 8 <= |a| && a[5] == ':' && IsTwentyFourHourToken(a[..5]) && TokenSeconds(a[..5]) == 0 by {
      SecondsTailFields(a, 0, 0);
    }
    assert ToNumber(a[6..8]) == Val(-9) by {
      assert a[6..8] == ['-', '9'];
      ToNumberOfNegativeDigit('9');
    }
    assert SecondsOfDay(now) == 86399;
    SecondsTailValue(a, b, now, -9);
  }

  /** The final check accepts the negative first delay of `at 00:00:-9`,
      because -8 is truthy: the parser returns a schedule whose first run
      lies in the past. */
  lemma NegativeSecondsParsed(tokens: seq<string>, clock: HostClock)
    requires |tokens| == 2 && IsAt(tokens[0]) && tokens[1] == "00:00:-9"
    requires clock.local == TimeOfDay(23, 59, 59)
    ensures ParseTokens(tokens, clock, Local) == Parsed(Schedule(-8, -8 + SecondsPerDay, SecondsPerDay, 0))
  {
    AtTokens(tokens, clock, Local);
    NegativeSecondsExample(TokenAt(tokens, 2));
  }

  /** The hour and minute of a literal token `hh:mm:..`. */
  lemma SecondsTailFields(a: string, h: nat, m: nat)
    requires h <= 23 && m <= 59 && 8 <= |a| && a[2] == ':' && a[5] == ':'
    requires a[0] == '0' + (h / 10) as char && a[1] == '0' + (h % 10) as char
    requires a[3] == '0' + (m / 10) as char && a[4] == '0' + (m % 10) as char
    ensures IsTwentyFourHourToken(a[..5]) && HourOf(a[..5]) == h && MinuteOf(a[..5]) == m
  {
    var p := a[..5];
    assert p[..2] == [a[0], a[1]] && p[3..] == [a[3], a[4]];
    ShortDigitsValue(p[..2]);
    ShortDigitsValue(p[3..]);
  }

  /** The text `handleAt` builds for a 24-hour token: `hh:mm:00`. */
  lemma TwentyFourHourTarget(a: string, b: string)
    requires IsTwentyFourHourToken(a) && !IsClockTime(a + " " + b)
    ensures TargetTextOf(a, b) == Time(a + ":00")
  {
    assert FullTimeAt(a, 2);
  }

  /** The fields of `hh:mm:00` for a 24-hour token `hh:mm`. */
  lemma TwentyFourHourTextSlots(a: string, now: TimeOfDay)
    requires IsTwentyFourHourToken(a)
    ensures SlotsOfTime(a + ":00", now) == SlotsOfFields(Val(HourOf(a)), Val(MinuteOf(a)), Val(0), now)
  {
    var time := a + ":00";
    TokenDigits(a);
    assert time[..2] == a[..2] && time[3..5] == a[3..] && time[5..] == ":00";
    DigitTimeSlots(time, now);
  }

  /** The fields of a 24-hour token `hh:mm` used as the time text itself. */
  lemma TwentyFourHourTokenSlots(p: string, now: TimeOfDay)
    requires IsTwentyFourHourToken(p)
    ensures SlotsOfTime(p, now) == SlotsOfFields(Val(HourOf(p)), Val(MinuteOf(p)), Val(0), now)
  {
    TokenDigits(p);
    assert p[3..5] == p[|p| - 2..];
    DigitTimeSlots(p, now);
  }

  /** The time of day a time token names, in seconds since midnight. */
  function TokenSeconds(a: string): nat
    requires IsTwentyFourHourToken(a) || IsTwelveHourToken(a)
  {
    3600 * HourOf(a) + 60 * MinuteOf(a)
  }

  /** `handleAt` and the final check on a 24-hour token: a daily schedule
      whose first run lies the distance ahead to the token's time. */
  lemma TwentyFourHourOutcome(a: string, b: string, now: TimeOfDay)
    requires IsTwentyFourHourToken(a) && !IsClockTime(a + " " + b) && now.Valid()
    ensures 0 <= DistanceAhead(TokenSeconds(a), now) < SecondsPerDay
    ensures Finish(Continue(AtBranch(a, b, now))) == DailyOutcome(DistanceAhead(TokenSeconds(a), now))
  {
    TwentyFourHourBranch(a, b, now);
    FinishToken(a, now);
  }

  /** The final check on the slots of a time token read as written. */
  lemma FinishToken(a: string, now: TimeOfDay)
    requires (IsTwentyFourHourToken(a) || IsTwelveHourToken(a)) && now.Valid()
    ensures 0 <= DistanceAhead(TokenSeconds(a), now) < SecondsPerDay
    ensures Finish(Continue(SlotsOfFields(Val(HourOf(a)), Val(MinuteOf(a)), Val(0), now)))
            == DailyOutcome(DistanceAhead(TokenSeconds(a), now))
  {
    TokenFields(a);
    FinishDaily(HourOf(a), MinuteOf(a), now);
  }

  /** `at hh:mm` in 24-hour form: the first run comes when the snapshot
      clock next shows hh:mm:00, within the next day; then daily. A target
      equal to the current second gives a zero delay, which the final check
      rejects with code 0. */
  lemma AtTwentyFourHour(tokens: seq<string>, clock: HostClock, mode: Mode)
    requires 2 <= |tokens| <= 3 && IsAt(tokens[0]) && IsTwentyFourHourToken(tokens[1])
    requires !IsClockTime(tokens[1] + " " + TokenAt(tokens, 2))
    requires Snapshot(clock, mode).Valid()
    ensures 0 <= DistanceAhead(TokenSeconds(tokens[1]), Snapshot(clock, mode)) < SecondsPerDay
    ensures ParseTokens(tokens, clock, mode) == DailyOutcome(DistanceAhead(TokenSeconds(tokens[1]), Snapshot(clock, mode)))
  {
    AtTokens(tokens, clock, mode);
    TwentyFourHourOutcome(tokens[1], TokenAt(tokens, 2), Snapshot(clock, mode));
  }

  /** The two-digit form of a 12-hour token's `h:mm`. */
  function PadHour(a: string): string {
    if |a| == 4 then "0" + a else a
  }

  /** Padding a 12-hour token gives a 24-hour token naming the same time. */
  lemma PadHourToken(a: string)
    requires IsTwelveHourToken(a)
    ensures IsTwentyFourHourToken(PadHour(a))
    ensures HourOf(PadHour(a)) == HourOf(a) && MinuteOf(PadHour(a)) == MinuteOf(a)
  {
    var p := PadHour(a);
    assert p[|p| - 2..] == a[|a| - 2..];
    if |a| == 4 {
      assert p[..2] == ['0', a[0]];
      ShortDigitsValue(a[..1]);
      ShortDigitsValue(p[..2]);
    }
  }

  /** A 12-hour time reads the same in a 3-token expression. */
  lemma TwelveHourMatches(a: string, b: string)
    requires IsTwelveHourToken(a) && (b == "am" || b == "pm")
    ensures IsClockTime(a + " " + b)
  {
    var j := a + " " + b;
    var k := |a| - 3;
    assert j[..k] == a[..k];
    assert j[|a|..|a| + 3][1..] == b;
    assert ClockTimeAt(j, k);
  }

  /** `handleAt` on `h:mm am` reads the hour as written. */
  lemma AmBranch(a: string, now: TimeOfDay)
    requires IsTwelveHourToken(a)
    ensures AtBranch(a, "am", now) == SlotsOfFields(Val(HourOf(a)), Val(MinuteOf(a)), Val(0), now)
  {
    AmTarget(a);
    BranchOfTime(a, "am", PadHour(a), now);
    PadHourToken(a);
    TwentyFourHourTokenSlots(PadHour(a), now);
  }

  /** The text `handleAt` builds for `h:mm am`: the token padded to `hh:mm`. */
  lemma AmTarget(a: string)
    requires IsTwelveHourToken(a)
    ensures TargetTextOf(a, "am") == Time(PadHour(a))
  {
    TwelveHourMatches(a, "am");
  }

  /** `at h:mm am` runs daily at h:mm with the hour used as written, so
      `12:mm am` means 12:mm, that is noon, and not midnight. */
  lemma AtAm(t0: string, a: string, clock: HostClock, mode: Mode)
    requires IsAt(t0) && IsTwelveHourToken(a) && Snapshot(clock, mode).Valid()
    ensures 0 <= DistanceAhead(TokenSeconds(a), Snapshot(clock, mode)) < SecondsPerDay
    ensures ParseTokens([t0, a, "am"], clock, mode) == DailyOutcome(DistanceAhead(TokenSeconds(a), Snapshot(clock, mode)))
  {
    AtTokens([t0, a, "am"], clock, mode);
    AmBranch(a, Snapshot(clock, mode));
    FinishToken(a, Snapshot(clock, mode));
  }

  /** `at h:mm am` behaves as the 24-hour `at 0h:mm`. */
  lemma AmAsTwentyFourHour(t0: string, a: string, clock: HostClock, mode: Mode)
    requires IsAt(t0) && IsTwelveHourToken(a) && Snapshot(clock, mode).Valid()
    ensures IsTwentyFourHourToken(PadHour(a))
    ensures ParseTokens([t0, a, "am"], clock, mode) == ParseTokens([t0, PadHour(a)], clock, mode)
  {
    var p := PadHour(a);
    PadHourToken(a);
    assert TokenSeconds(p) == TokenSeconds(a);
    TwentyFourHourIsNotClockTime(p, "undefined");
    AtAm(t0, a, clock, mode);
    AtTwentyFourHour([t0, p], clock, mode);
  }

  /** The fields of a 12-hour token split at its colon. */
  lemma TwelveHourFields(a: string)
    requires IsTwelveHourToken(a)
    ensures Split(a, ':') == [a[..|a| - 3], a[|a| - 2..]]
  {
    var k := |a| - 3;
    TokenDigits(a);
    DigitsExclude(a[..k], ':');
    DigitsExclude(a[k + 1..], ':');
    SplitAtFirst(a, k, ':');
    SplitWithoutSeparator(a[k + 1..], ':');
  }

  /** The hour text `handleAt` prints for a `pm` time: the hour plus 12. */
  lemma PmHourText(h: nat)
    requires 1 <= h <= 12
    ensures |NatToString(h + 12)| == 2 && AllDigits(NatToString(h + 12))
    ensures DigitsValue(NatToString(h + 12)) == h + 12
  {
    NatToStringValue(h + 12);
  }

  /** The text `handleAt` builds for `h:mm pm`: the hour plus 12, the
      minutes as written, and `:00`. */
  function PmTimeText(a: string): string
    requires IsTwelveHourToken(a)
  {
    NatToString(HourOf(a) + 12) + ":" + a[|a| - 2..] + ":00"
  }

  /** `handleAt` on `h:mm pm` adds 12 to the hour as written. */
  lemma PmBranch(a: string, now: TimeOfDay)
    requires IsTwelveHourToken(a)
    ensures AtBranch(a, "pm", now) == SlotsOfFields(Val(HourOf(a) + 12), Val(MinuteOf(a)), Val(0), now)
  {
    PmBranchText(a, now);
    PmTextSlots(a, now);
  }

  lemma PmBranchText(a: string, now: TimeOfDay)
    requires IsTwelveHourToken(a)
    ensures AtBranch(a, "pm", now) == SlotsOfTime(PmTimeText(a), now)
  {
    PmTarget(a);
    BranchOfTime(a, "pm", PmTimeText(a), now);
  }

  lemma PmTextSlots(a: string, now: TimeOfDay)
    requires IsTwelveHourToken(a)
    ensures SlotsOfTime(PmTimeText(a), now) == SlotsOfFields(Val(HourOf(a) + 12), Val(MinuteOf(a)), Val(0), now)
  {
    TokenDigits(a);
    TokenFields(a);
    PmHourText(HourOf(a));
    FieldTextSlots(NatToString(HourOf(a) + 12), a[|a| - 2..], now);
  }

  /** A time text `hh:mm:00` with two-digit fields reads as those fields. */
  lemma FieldTextSlots(hh: string, mm: string, now: TimeOfDay)
    requires |hh| == 2 && |mm| == 2 && AllDigits(hh) && AllDigits(mm)
    ensures SlotsOfTime(hh + ":" + mm + ":00", now)
            == SlotsOfFields(Val(DigitsValue(hh)), Val(DigitsValue(mm)), Val(0), now)
  {
    TimeTextFields(hh, mm);
    DigitTimeSlots(hh + ":" + mm + ":00", now);
  }

  /** Once `handleAt` has built a target text, the slots come from its
      fields. */
  lemma BranchOfTime(a: string, b: string, time: string, now: TimeOfDay)
    requires TargetTextOf(a, b) == Time(time) && time != ""
    ensures AtBranch(a, b, now) == SlotsOfTime(time, now)
  {
  }

  /** The text `handleAt` builds for `h:mm pm`. */
  lemma PmTarget(a: string)
    requires IsTwelveHourToken(a)
    ensures TargetTextOf(a, "pm") == Time(PmTimeText(a))
  {
    TwelveHourMatches(a, "pm");
    TwelveHourFields(a);
    TokenDigits(a);
    ToNumberOfShortDigits(a[..|a| - 3]);
  }

  /** The fields of a time text `hh:mm:00`. */
  lemma TimeTextFields(hh: string, mm: string)
    requires |hh| == 2 && |mm| == 2
    ensures var time := hh + ":" + mm + ":00";
      |time| == 8 && time[..2] == hh && time[3..5] == mm && time[5..] == ":00"
  {
    var time := hh + ":" + mm + ":00";
    assert time[..2] == hh && time[3..5] == mm && time[5..] == ":00";
  }

  /** `at h:mm pm` with h from 1 to 11 runs daily at (h+12):mm. */
  lemma AtPm(t0: string, a: string, clock: HostClock, mode: Mode)
    requires IsAt(t0) && IsTwelveHourToken(a) && HourOf(a) <= 11 && Snapshot(clock, mode).Valid()
    ensures 0 <= DistanceAhead(TokenSeconds(a) + 12 * 3600, Snapshot(clock, mode)) < SecondsPerDay
    ensures ParseTokens([t0, a, "pm"], clock, mode)
            == DailyOutcome(DistanceAhead(TokenSeconds(a) + 12 * 3600, Snapshot(clock, mode)))
  {
    AtTokens([t0, a, "pm"], clock, mode);
    PmOutcome(a, Snapshot(clock, mode));
  }

  lemma PmOutcome(a: string, now: TimeOfDay)
    requires IsTwelveHourToken(a) && HourOf(a) <= 11 && now.Valid()
    ensures 0 <= DistanceAhead(TokenSeconds(a) + 12 * 3600, now) < SecondsPerDay
    ensures Finish(Continue(AtBranch(a, "pm", now))) == DailyOutcome(DistanceAhead(TokenSeconds(a) + 12 * 3600, now))
  {
    var h, m := HourOf(a) + 12, MinuteOf(a);
    var t := TokenSeconds(a) + 12 * 3600;
    assert t == 3600 * h + 60 * m;
    PmBranch(a, now);
    TokenFields(a);
    FinishDaily(h, m, now);
  }


  // ---------------------------------------------------------------------
  // Behaviours of the code as written
  // ---------------------------------------------------------------------

  /** `at 12:mm pm` becomes hour 24: the first run comes when the snapshot
      clock passes 24:mm, that is 00:mm after midnight, never at noon, and
      the first delay can exceed a day. */
  lemma TwelvePmIsAfterMidnight(t0: string, a: string, clock: HostClock, mode: Mode)
    requires IsAt(t0) && IsTwelveHourToken(a) && HourOf(a) == 12
    requires Snapshot(clock, mode).Valid()
    ensures var r := ParseTokens([t0, a, "pm"], clock, mode);
      && r.Parsed?
      && SecondsOfDay(Snapshot(clock, mode)) + r.schedule.firstExec == SecondsPerDay + 60 * MinuteOf(a)
  {
    AtTokens([t0, a, "pm"], clock, mode);
    TwelvePmOutcome(a, Snapshot(clock, mode));
  }

  lemma TwelvePmOutcome(a: string, now: TimeOfDay)
    requires IsTwelveHourToken(a) && HourOf(a) == 12 && now.Valid()
    ensures var r := Finish(Continue(AtBranch(a, "pm", now)));
      && r.Parsed?
      && SecondsOfDay(now) + r.schedule.firstExec == SecondsPerDay + 60 * MinuteOf(a)
  {
    var m := MinuteOf(a);
    PmBranch(a, now);
    TokenFields(a);
    assert HourOf(a) + 12 == 24;
    FinishNextDay(m, now);
  }

  /** The target `24:m:00` ends in a schedule whose first run is at 00:m
      on the next day. */
  lemma FinishNextDay(m: int, now: TimeOfDay)
    requires 0 <= m <= 59 && now.Valid()
    ensures var r := Finish(Continue(SlotsOfFields(Val(24), Val(m), Val(0), now)));
      && r.Parsed?
      && SecondsOfDay(now) + r.schedule.firstExec == SecondsPerDay + 60 * m
  {
    IntegerFieldsSlots(24, m, 0, now);
  }

  /** A 12-hour time written without the space, as in `at 3:30pm`, matches
      the 12-hour pattern against "3:30pm undefined", but no `am` or `pm`
      token follows, so the parser fails with code 5. */
  lemma CompactMeridiemFails(clock: HostClock, mode: Mode)
    ensures ParseTokens(["at", "3:30pm"], clock, mode) == Failed(5)
  {
    var j := "3:30pm" + " " + "undefined";
    assert j[..1] == "3" && j[4..6] == "pm";
    assert ClockTimeAt(j, 1);
    NoTimeError(["at", "3:30pm"], clock, mode);
  }

  /** A one-digit 24-hour time such as `at 9:00` builds the text `9:00:00`,
      whose first two characters `9:` are not a number: the delay is `NaN`
      and the parser fails with code 0. */
  lemma OneDigitHourFails(t0: string, a: string, clock: HostClock, mode: Mode)
    requires IsAt(t0) && |a| == 4 && IsDigit(a[0]) && MinuteFieldAt(a, 1)
    ensures ParseTokens([t0, a], clock, mode) == Failed(0)
  {
    var now := Snapshot(clock, mode);
    var time := a + ":00";
    AtTokens([t0, a], clock, mode);
    OneDigitTarget(a);
    BranchOfTime(a, "undefined", time, now);
    OneDigitHourNaN(time);
    NaNHourFails(ToNumber(Substr(time, 3, 2)), ToNumber(Substr(time, 6, 2)), now);
  }

  /** A one-digit 24-hour token is taken by the 24-hour pattern. */
  lemma OneDigitTarget(a: string)
    requires |a| == 4 && IsDigit(a[0]) && MinuteFieldAt(a, 1)
    ensures TargetTextOf(a, "undefined") == Time(a + ":00")
  {
    var j := a + " " + "undefined";
    assert j[2] == a[2] && IsDigit(a[2]);
    assert j[4..6][1] == 'u';
    assert !IsClockTime(j);
    assert a[..1] == [a[0]];
    assert FullTimeAt(a, 1);
  }

  /** A digit followed by a colon is not a number. */
  lemma OneDigitHourNaN(time: string)
    requires |time| >= 2 && IsDigit(time[0]) && time[1] == ':'
    ensures ToNumber(Substr(time, 0, 2)) == NaN
  {
    var f := Substr(time, 0, 2);
    assert |f| == 2 && f[0] == time[0] && f[1] == ':';
    DigitColonNaN(f);
  }

  lemma DigitColonNaN(f: string)
    requires |f| == 2 && IsDigit(f[0]) && f[1] == ':'
    ensures ToNumber(f) == NaN
  {
    assert Trim(f) == f;
    assert !IsIntegerLiteral(f);
  }

  /** An hour field that is not a number makes the first delay `NaN`, which
      the final check rejects with code 0. */
  lemma NaNHourFails(minute: Num, second: Num, now: TimeOfDay)
    ensures Finish(Continue(SlotsOfFields(NaN, minute, second, now))) == Failed(0)
  {
  }

  /** `@` on its own is not the `at` keyword: `/^(at|@)\b/` needs a word
      character after `@`, so `@ 14:00` fails with code 0. */
  lemma AtSignAloneFails(tokens: seq<string>, clock: HostClock, mode: Mode)
    requires 2 <= |tokens| <= 3 && tokens[0] == "@"
    ensures !IsAt("@") && IsAt("@x")
    ensures ParseTokens(tokens, clock, mode) == Failed(0)
  {
    assert !("every" <= "@");
    assert !("at" <= "@");
    assert "@" <= "@x";
  }

  // ---------------------------------------------------------------------
  // Malformed expressions
  // ---------------------------------------------------------------------

  /** `every` alone is one token: code 1. */
  lemma EveryAloneFails(clock: HostClock, mode: Mode)
    ensures Parse("every", clock, mode) == Failed(1)
  {
    ParseOfWords(["every"], clock, mode);
  }

  /** A quantity that is a word, as in `every five minutes`, is neither a
      number nor `plain`: code 4. */
  lemma WordQuantityFails(tokens: seq<string>, u: Unit, clock: HostClock, mode: Mode)
    requires |tokens| == 3 && IsEvery(tokens[0]) && MatchesUnit(u, tokens[2])
    requires |tokens[1]| > 0 && !IsDigit(tokens[1][0]) && !IsPlain(tokens[1])
    ensures ParseTokens(tokens, clock, mode) == Failed(4)
  {
    UnitOfMatches(u, tokens[2]);
    if IsAnyNumber(tokens[1]) {
      NumberTokenStartsWithDigit(tokens[1]);
    }
    QuantityError(tokens, clock, mode);
  }

  /** A unit token whose first letter starts no unit, as in
      `every 5 fortnights`, names no unit: code 3. */
  lemma UnknownUnitFails(tokens: seq<string>, clock: HostClock, mode: Mode)
    requires |tokens| == 3 && IsEvery(tokens[0])
    requires |tokens[2]| > 0 && forall u :: tokens[2][0] != Initial(u)
    ensures ParseTokens(tokens, clock, mode) == Failed(3)
  {
    NoUnitByInitial(tokens[2]);
    UnitError(tokens, clock, mode);
  }

  /** `at noon`: neither time pattern matches, code 2. */
  lemma WordTimeFails(clock: HostClock, mode: Mode)
    ensures Parse("at noon", clock, mode) == Failed(2)
  {
    var words := ["at", "noon"];
    assert Join(words, ' ') == "at noon";
    ParseOfWords(words, clock, mode);
    WordTimeTokens(clock, mode);
  }

  lemma WordTimeTokens(clock: HostClock, mode: Mode)
    ensures ParseTokens(["at", "noon"], clock, mode) == Failed(2)
  {
  }
}

=== FILE: text.dfy ===
/** Character- and string-level building blocks of the schedule parser:
    ASCII lower-casing, splitting on a one-character separator, the
    regular-expression word boundary `\b`, decimal digit strings,
    JavaScript's white-space set and `substr`. */
module Text {

  predicate IsUpperAscii(c: char) {
    'A' <= c <= 'Z'
  }

  function LowerChar(c: char): char {
    if IsUpperAscii(c) then (c as int + 32) as char else c
  }

  /** `String.prototype.toLowerCase`, restricted to the ASCII letters:
      every capital becomes its small letter, every other character stays. */
  function Lower(s: string): (r: string)
    ensures |r| == |s|
    ensures forall i :: 0 <= i < |r| ==> !IsUpperAscii(r[i])
    ensures forall i :: 0 <= i < |s| ==>
      r[i] == s[i] || (IsUpperAscii(s[i]) && r[i] as int == s[i] as int + 32)
    decreases |s|
  {
    if |s| == 0 then "" else [LowerChar(s[0])] + Lower(s[1..])
  }

  /** Lower-casing changes nothing in a string without ASCII capitals. */
  lemma LowerOfLowercase(s: string)
    requires NoUpperAscii(s)
    ensures Lower(s) == s
  {
  }

  predicate NoUpperAscii(s: string) {
    forall i :: 0 <= i < |s| ==> !IsUpperAscii(s[i])
  }

  /** Number of occurrences of `c` in `s`. */
  function Count(s: string, c: char): nat
    decreases |s|
  {
    if |s| == 0 then 0 else (if s[0] == c then 1 else 0) + Count(s[1..], c)
  }

  /** Lower-casing neither creates nor removes spaces. */
  lemma {:induction false} LowerKeepsSpaces(s: string)
    ensures Count(Lower(s), ' ') == Count(s, ' ')
    decreases |s|
  {
    if |s| > 0 {
      LowerKeepsSpaces(s[1..]);
      assert Lower(s)[1..] == Lower(s[1..]);
    }
  }

  /** `String.prototype.split` with a one-character separator: the pieces
      between consecutive separators, empty pieces included, so there is
      always one piece more than there are separators. */
  function Split(s: string, sep: char): (r: seq<string>)
    ensures |r| >= 1
    decreases |s|
  {
    if |s| == 0 then [""]
    else
      var rest := Split(s[1..], sep);
      if s[0] == sep then [""] + rest
      else [[s[0]] + rest[0]] + rest[1..]
  }

  /** A split has one piece more than there are separators, and no piece
      contains the separator. */
  lemma {:induction false} SplitPieces(s: string, sep: char)
    ensures |Split(s, sep)| == Count(s, sep) + 1
    ensures forall i :: 0 <= i < |Split(s, sep)| ==> sep !in Split(s, sep)[i]
    decreases |s|
  {
    if |s| > 0 {
      SplitPieces(s[1..], sep);
    }
  }

  /** The pieces glued back together with the separator between them. */
  function Join(pieces: seq<string>, sep: char): string
    decreases |pieces|
  {
    if |pieces| == 0 then ""
    else if |pieces| == 1 then pieces[0]
    else pieces[0] + [sep] + Join(pieces[1..], sep)
  }

  lemma JoinConsHead(c: char, pieces: seq<string>, sep: char)
    requires |pieces| >= 1
    ensures Join([[c] + pieces[0]] + pieces[1..], sep) == [c] + Join(pieces, sep)
  {
    var ps := [[c] + pieces[0]] + pieces[1..];
    assert ps[1..] == pieces[1..];
  }

  /** Pieces and a separator without ASCII capitals join into a string
      without them. */
  lemma {:induction false} JoinNoUpperAscii(pieces: seq<string>, sep: char)
    requires forall i :: 0 <= i < |pieces| ==> NoUpperAscii(pieces[i])
    requires !IsUpperAscii(sep)
    ensures NoUpperAscii(Join(pieces, sep))
    decreases |pieces|
  {
    if |pieces| > 1 {
      JoinNoUpperAscii(pieces[1..], sep);
      var rest := Join(pieces[1..], sep);
      var j := pieces[0] + [sep] + rest;
      assert forall i :: |pieces[0]| < i < |j| ==> j[i] == rest[i - |pieces[0]| - 1];
    }
  }

  /** Joining the pieces of a split gives back the original string. */
  lemma {:induction false} JoinSplit(s: string, sep: char)
    ensures Join(Split(s, sep), sep) == s
    decreases |s|
  {
    if |s| > 0 {
      JoinSplit(s[1..], sep);
      var rest := Split(s[1..], sep);
      if s[0] == sep {
        assert ([""] + rest)[1..] == rest;
        assert s == [sep] + s[1..];
      } else {
        JoinConsHead(s[0], rest, sep);
        assert s == [s[0]] + s[1..];
      }
    }
  }

  /** A string without separators is a single piece. */
  lemma {:induction false} SplitWithoutSeparator(w: string, sep: char)
    requires sep !in w
    ensures Split(w, sep) == [w]
    decreases |w|
  {
    if |w| > 0 {
      SplitWithoutSeparator(w[1..], sep);
      assert [w[0]] + w[1..] == w;
    }
  }

  /** A separator-free prefix ended by a separator is the first piece. */
  lemma {:induction false} SplitAfterPiece(w: string, t: string, sep: char)
    requires sep !in w
    ensures Split(w + [sep] + t, sep) == [w] + Split(t, sep)
    decreases |w|
  {
    var s := w + [sep] + t;
    if |w| == 0 {
      assert s[1..] == t;
    } else {
      assert s[1..] == w[1..] + [sep] + t;
      SplitAfterPiece(w[1..], t, sep);
      assert [w[0]] + w[1..] == w;
    }
  }

  /** Splitting separator-free pieces joined by the separator gives the
      pieces back: `Split` and `Join` are inverse on such lists. */
  lemma {:induction false} SplitJoin(pieces: seq<string>, sep: char)
    requires |pieces| >= 1
    requires forall i :: 0 <= i < |pieces| ==> sep !in pieces[i]
    ensures Split(Join(pieces, sep), sep) == pieces
    decreases |pieces|
  {
    if |pieces| == 1 {
      SplitWithoutSeparator(pieces[0], sep);
    } else {
      SplitJoin(pieces[1..], sep);
      SplitAfterPiece(pieces[0], Join(pieces[1..], sep), sep);
      assert [pieces[0]] + pieces[1..] == pieces;
    }
  }

  /** The first piece of a split is everything before the first separator. */
  lemma SplitAtFirst(s: string, k: nat, sep: char)
    requires k < |s| && s[k] == sep && sep !in s[..k]
    ensures Split(s, sep) == [s[..k]] + Split(s[k + 1..], sep)
  {
    assert s == s[..k] + [sep] + s[k + 1..];
    SplitAfterPiece(s[..k], s[k + 1..], sep);
  }

  /** The first piece of a split is the text up to the first separator, or
      all of it; when there is a second piece, the pieces after the first
      are the split of what follows that separator. */
  lemma {:induction false} FirstPiece(s: string, sep: char)
    ensures var p := Split(s, sep); p[0] <= s && sep !in p[0]
    ensures var p := Split(s, sep); |p[0]| < |s| ==> s[|p[0]|] == sep
    ensures var p := Split(s, sep); |p| >= 2 ==> |p[0]| < |s| && p[1..] == Split(s[|p[0]| + 1..], sep)
    decreases |s|
  {
    if |s| > 0 && s[0] != sep {
      FirstPiece(s[1..], sep);
      var rest := Split(s[1..], sep);
      assert Split(s, sep) == [[s[0]] + rest[0]] + rest[1..];
      if |rest| >= 2 {
        assert s[1..][|rest[0]| + 1..] == s[|rest[0]| + 2..];
      }
    }
  }

  /** A word character of regular expressions: `[A-Za-z0-9_]`. */
  predicate IsWordChar(c: char) {
    'a' <= c <= 'z' || 'A' <= c <= 'Z' || '0' <= c <= '9' || c == '_'
  }

  /** The assertion `\b` at position `i` of `s`: a word character on exactly
      one side of the position. */
  predicate BoundaryAt(s: string, i: int)
    requires 0 <= i <= |s|
  {
    (i > 0 && IsWordChar(s[i - 1])) != (i < |s| && IsWordChar(s[i]))
  }

  /** The test `/^p\b/` for a literal `p`: `s` starts with `p` and a word
      boundary follows it. */
  predicate WordPrefix(p: string, s: string) {
    p <= s && BoundaryAt(s, |p|)
  }

  /** The longest prefix of `s` made of word characters: what `\w*` matches
      at the start of `s`. */
  function LeadingWord(s: string): string
    decreases |s|
  {
    if |s| > 0 && IsWordChar(s[0]) then [s[0]] + LeadingWord(s[1..]) else ""
  }

  /** The leading word is a prefix of word characters that is followed by a
      non-word character or by the end of `s`. */
  lemma {:induction false} LeadingWordShape(s: string)
    ensures |LeadingWord(s)| <= |s| && LeadingWord(s) == s[..|LeadingWord(s)|]
    ensures forall i :: 0 <= i < |LeadingWord(s)| ==> IsWordChar(s[i])
    ensures |LeadingWord(s)| < |s| ==> !IsWordChar(s[|LeadingWord(s)|])
    decreases |s|
  {
    if |s| > 0 && IsWordChar(s[0]) {
      LeadingWordShape(s[1..]);
    }
  }

  /** For a word `p` (non-empty, word characters only), the test `/^p\b/`
      holds exactly when `p` is the leading word: the boundary after `p` can
      only be the end of the run of word characters. */
  lemma WordPrefixIsLeadingWord(p: string, s: string)
    requires |p| > 0 && forall i :: 0 <= i < |p| ==> IsWordChar(p[i])
    ensures WordPrefix(p, s) <==> LeadingWord(s) == p
  {
    LeadingWordShape(s);
  }

  predicate IsDigit(c: char) {
    '0' <= c <= '9'
  }

  predicate AllDigits(s: string) {
    forall i :: 0 <= i < |s| ==> IsDigit(s[i])
  }

  /** A digit string contains no character other than digits. */
  lemma DigitsExclude(s: string, c: char)
    requires AllDigits(s) && !IsDigit(c)
    ensures c !in s
  {
  }

  function DigitValue(c: char): nat
    requires IsDigit(c)
  {
    c as int - '0' as int
  }

  function DigitChar(d: nat): (c: char)
    requires d < 10
    ensures IsDigit(c) && DigitValue(c) == d
  {
    ('0' as int + d) as char
  }

  /** The value of a decimal digit string, most significant digit first. */
  function DigitsValue(s: string): nat
    requires AllDigits(s)
    decreases |s|
  {
    if |s| == 0 then 0 else 10 * DigitsValue(s[..|s| - 1]) + DigitValue(s[|s| - 1])
  }

  /** The value of a one- or two-digit string. */
  lemma ShortDigitsValue(s: string)
    requires 1 <= |s| <= 2 && AllDigits(s)
    ensures |s| == 1 ==> DigitsValue(s) == DigitValue(s[0])
    ensures |s| == 2 ==> DigitsValue(s) == 10 * DigitValue(s[0]) + DigitValue(s[1])
  {
    assert s[..|s| - 1][..0] == [];
    if |s| == 2 {
      var t := s[..1];
      assert t[..0] == [] && t[0] == s[0];
      assert DigitsValue(t) == DigitValue(s[0]);
    }
  }

  /** `Number.prototype.toString` on a non-negative integer. */
  function NatToString(n: nat): string
    decreases n
  {
    if n < 10 then [DigitChar(n)] else NatToString(n / 10) + [DigitChar(n % 10)]
  }

  /** Printing a number gives a digit string, two digits long from 10 to
      99, and reading it back gives the number. */
  lemma {:induction false} NatToStringValue(n: nat)
    ensures 1 <= |NatToString(n)| && AllDigits(NatToString(n))
    ensures n < 10 ==> |NatToString(n)| == 1
    ensures 10 <= n < 100 ==> |NatToString(n)| == 2
    ensures DigitsValue(NatToString(n)) == n
    decreases n
  {
    if n >= 10 {
      NatToStringValue(n / 10);
      var r := NatToString(n);
      assert r[..|r| - 1] == NatToString(n / 10);
    }
  }

  /** The white space that `\s` matches and that `Number` trims: the
      ECMAScript WhiteSpace and LineTerminator characters. */
  predicate IsJsSpace(c: char) {
    c == '\t' || c == '\n' || c == '\U{B}' || c == '\U{C}' || c == '\r' || c == ' '
    || c == '\U{A0}' || c == '\U{1680}' || ('\U{2000}' <= c <= '\U{200A}')
    || c == '\U{2028}' || c == '\U{2029}' || c == '\U{202F}' || c == '\U{205F}'
    || c == '\U{3000}' || c == '\U{FEFF}'
  }

  /** `s` without its leading white space. */
  function TrimStart(s: string): string
    decreases |s|
  {
    if |s| > 0 && IsJsSpace(s[0]) then TrimStart(s[1..]) else s
  }

  /** `s` without its trailing white space. */
  function TrimEnd(s: string): string
    decreases |s|
  {
    if |s| > 0 && IsJsSpace(s[|s| - 1]) then TrimEnd(s[..|s| - 1]) else s
  }

  /** White space removed from both ends, as `Number` does before reading. */
  function Trim(s: string): string {
    TrimEnd(TrimStart(s))
  }

  /** Trimming the start drops only white space and leaves a suffix that
      does not start with white space. */
  lemma {:induction false} TrimStartSuffix(s: string)
    ensures |TrimStart(s)| <= |s| && TrimStart(s) == s[|s| - |TrimStart(s)|..]
    ensures forall k :: 0 <= k < |s| - |TrimStart(s)| ==> IsJsSpace(s[k])
    ensures |TrimStart(s)| > 0 ==> !IsJsSpace(TrimStart(s)[0])
    decreases |s|
  {
    if |s| > 0 && IsJsSpace(s[0]) {
      TrimStartSuffix(s[1..]);
    }
  }

  /** Trimming the end drops only white space and leaves a prefix that does
      not end with white space. */
  lemma {:induction false} TrimEndPrefix(s: string)
    ensures |TrimEnd(s)| <= |s| && TrimEnd(s) == s[..|TrimEnd(s)|]
    ensures forall k :: |TrimEnd(s)| <= k < |s| ==> IsJsSpace(s[k])
    ensures |TrimEnd(s)| > 0 ==> !IsJsSpace(TrimEnd(s)[|TrimEnd(s)| - 1])
    decreases |s|
  {
    if |s| > 0 && IsJsSpace(s[|s| - 1]) {
      TrimEndPrefix(s[..|s| - 1]);
    }
  }

  /** The trimmed text is the piece `s[i..j]` of `s`: everything before `i`
      and from `j` on is white space, and the piece has white space at
      neither end. A text with no white space at its ends is its own trimmed
      text. */
  lemma TrimEnds(s: string)
    ensures var r, i := Trim(s), |s| - |TrimStart(s)|;
      && 0 <= i <= i + |r| <= |s|
      && r == s[i..i + |r|]
      && (forall k :: 0 <= k < i ==> IsJsSpace(s[k]))
      && (forall k :: i + |r| <= k < |s| ==> IsJsSpace(s[k]))
      && (|r| > 0 ==> !IsJsSpace(r[0]) && !IsJsSpace(r[|r| - 1]))
      && (|s| == 0 || (!IsJsSpace(s[0]) && !IsJsSpace(s[|s| - 1])) ==> r == s)
  {
    var t := TrimStart(s);
    var i := |s| - |t|;
    TrimStartSuffix(s);
    TrimEndPrefix(t);
    var r := TrimEnd(t);
    assert r == t[..|r|] == s[i..i + |r|];
    forall k | i + |r| <= k < |s|
      ensures IsJsSpace(s[k])
    {
      assert s[k] == t[k - i];
    }
    if |r| > 0 {
      assert r[0] == t[0];
    }
  }

  /** `String.prototype.substr(start, length)` with non-negative arguments:
      at most `length` characters from `start`, fewer at the end of `s`. */
  function Substr(s: string, start: nat, length: nat): (r: string)
    ensures |r| <= length
    ensures start + length <= |s| ==> r == s[start..start + length]
    ensures start < |s| < start + length ==> r == s[start..]
    ensures start >= |s| ==> r == ""
  {
    if start >= |s| then ""
    else s[start..if start + length <= |s| then start + length else |s|]
  }
}

=== FILE: tokens.dfy ===
/** The token classes of the schedule grammar (the `TYPES` regular
    expressions) as predicates on strings, and the unit table (`PERIODS`).
    Every pattern is anchored at the start of the token and ends in `\b`,
    so a token matches when it begins with an accepted spelling followed by
    a word boundary. For the word patterns that boundary can only be the end
    of the token's leading word, so they are stated on `LeadingWord`; the
    lemmas `KeywordPatterns`, `NumberPattern` and `UnitPattern` relate them
    to the literal reading with `WordPrefix`. */
module Tokens {
  import opened Text
  import opened Optional

  /** `/^every\b/`: the token's leading word is `every`. */
  predicate IsEvery(t: string) {
    LeadingWord(t) == "every"
  }

  /** `/^(at|@)\b/`: the leading word is `at`, or `@` is followed by a word
      character (the only way `\b` holds right after `@`). */
  predicate IsAt(t: string) {
    LeadingWord(t) == "at" || (|t| >= 2 && t[0] == '@' && IsWordChar(t[1]))
  }

  /** `/^((plain))\b/` */
  predicate IsPlain(t: string) {
    LeadingWord(t) == "plain"
  }

  /** `/^([0-9]+)\b/`: digits are word characters, so a run of digits ends at
      a word boundary exactly when it is the whole leading word. */
  predicate IsAnyNumber(t: string) {
    |LeadingWord(t)| > 0 && AllDigits(LeadingWord(t))
  }

  /** The keyword predicates are the anchored patterns they stand for. */
  lemma KeywordPatterns(t: string)
    ensures IsEvery(t) <==> WordPrefix("every", t)
    ensures IsAt(t) <==> WordPrefix("at", t) || WordPrefix("@", t)
    ensures IsPlain(t) <==> WordPrefix("plain", t)
  {
    WordPrefixIsLeadingWord("every", t);
    WordPrefixIsLeadingWord("at", t);
    WordPrefixIsLeadingWord("plain", t);
  }

  /** `IsAnyNumber` is the backtracking reading of `/^([0-9]+)\b/`: some
      non-empty run of leading digits ends at a word boundary. */
  lemma NumberPattern(t: string)
    ensures IsAnyNumber(t) <==> exists k :: 1 <= k <= |t| && AllDigits(t[..k]) && BoundaryAt(t, k)
  {
    LeadingWordShape(t);
    var w := LeadingWord(t);
    if IsAnyNumber(t) {
      assert AllDigits(t[..|w|]) && BoundaryAt(t, |w|);
    }
    if k :| 1 <= k <= |t| && AllDigits(t[..k]) && BoundaryAt(t, k) {
      WordPrefixIsLeadingWord(t[..k], t);
    }
  }

  /** The units of the `every` grammar. */
  datatype Unit = Second | Minute | Hour | Day | Week

  /** Seconds per unit: the used entries of `PERIODS`. */
  function Period(u: Unit): nat {
    match u
    case Second => 1
    case Minute => 60
    case Hour => 3600
    case Day => 86400
    case Week => 604800
  }

  /** The spellings a unit pattern accepts before its word boundary:
      `s|sec(ond)?(s)?`, `m|min(ute)?(s)?`, `h(our)?(s)?`, `d(ay)?(s)?`,
      `w(eek)?(s)?`. */
  function Spellings(u: Unit): set<string> {
    match u
    case Second => {"s", "sec", "secs", "second", "seconds"}
    case Minute => {"m", "min", "mins", "minute", "minutes"}
    case Hour => {"h", "hs", "hour", "hours"}
    case Day => {"d", "ds", "day", "days"}
    case Week => {"w", "ws", "week", "weeks"}
  }

  /** The letter every spelling of the unit starts with. */
  function Initial(u: Unit): char {
    match u
    case Second => 's'
    case Minute => 'm'
    case Hour => 'h'
    case Day => 'd'
    case Week => 'w'
  }

  /** The unit pattern of `u` matches token `t`: the token's leading word
      is one of the unit's spellings. */
  predicate MatchesUnit(u: Unit, t: string) {
    LeadingWord(t) in Spellings(u)
  }

  /** `MatchesUnit` is the anchored unit pattern: some spelling is followed
      by a word boundary at the start of the token. */
  lemma UnitPattern(u: Unit, t: string)
    ensures MatchesUnit(u, t) <==> exists p :: p in Spellings(u) && WordPrefix(p, t)
  {
    forall p | p in Spellings(u)
      ensures WordPrefix(p, t) <==> LeadingWord(t) == p
    {
      WordPrefixIsLeadingWord(p, t);
    }
  }

  /** Every spelling of a unit starts with the unit's letter, so at most one
      unit pattern matches any token. */
  lemma SpellingInitial(u: Unit, p: string)
    requires p in Spellings(u)
    ensures |p| > 0 && p[0] == Initial(u)
  {
  }

  /** Every spelling is a word: letters only. */
  lemma SpellingIsWord(u: Unit, p: string)
    requires p in Spellings(u)
    ensures forall i :: 0 <= i < |p| ==> IsWordChar(p[i])
  {
    match u
    case Second =>
    case Minute =>
    case Hour =>
    case Day =>
    case Week =>
  }

  /** A token whose first character is no unit's letter names no unit. */
  lemma NoUnitByInitial(t: string)
    requires |t| > 0 && forall u :: t[0] != Initial(u)
    ensures UnitOf(t) == None
  {
    if UnitOf(t).Some? {
      LeadingWordShape(t);
      SpellingInitial(UnitOf(t).value, LeadingWord(t));
    }
  }

  /** The unit a token names. The source tests the five patterns in turn and
      keeps the last that matched; since the patterns are exclusive, the
      order does not matter. */
  function UnitOf(t: string): (r: Option<Unit>)
    ensures r.Some? ==> MatchesUnit(r.value, t)
    ensures r.None? ==> forall u :: !MatchesUnit(u, t)
  {
    var w := LeadingWord(t);
    if w in Spellings(Week) then Some(Week)
    else if w in Spellings(Day) then Some(Day)
    else if w in Spellings(Hour) then Some(Hour)
    else if w in Spellings(Minute) then Some(Minute)
    else if w in Spellings(Second) then Some(Second)
    else None
  }

  /** A token names unit `u` exactly when `u`'s pattern matches it. */
  lemma UnitOfMatches(u: Unit, t: string)
    ensures UnitOf(t) == Some(u) <==> MatchesUnit(u, t)
  {
    if MatchesUnit(u, t) && UnitOf(t) != Some(u) {
      SpellingInitial(u, LeadingWord(t));
      SpellingInitial(UnitOf(t).value, LeadingWord(t));
    }
  }

  /** Every accepted spelling, as a whole token, names its unit. */
  lemma SpellingNamesUnit(u: Unit, p: string)
    requires p in Spellings(u)
    ensures UnitOf(p) == Some(u)
  {
    SpellingInitial(u, p);
    assert p <= p && BoundaryAt(p, |p|);
    SpellingIsWord(u, p);
    WordPrefixIsLeadingWord(p, p);
    UnitOfMatches(u, p);
  }

  /** An hour field of the 24-hour pattern, `[0]?\d|[1]\d|2[0-3]`, of `n`
      characters at the start of `t`. */
  predicate Hour24At(t: string, n: nat) {
    (n == 1 && 1 <= |t| && IsDigit(t[0]))
    || (n == 2 && 2 <= |t|
        && (((t[0] == '0' || t[0] == '1') && IsDigit(t[1])) || (t[0] == '2' && '0' <= t[1] <= '3')))
  }

  /** An hour field of the 12-hour pattern, `[0]?[1-9]|1[0-2]`, of `n`
      characters at the start of `t`. */
  predicate Hour12At(t: string, n: nat) {
    (n == 1 && 1 <= |t| && '1' <= t[0] <= '9')
    || (n == 2 && 2 <= |t| && ((t[0] == '0' && '1' <= t[1] <= '9') || (t[0] == '1' && '0' <= t[1] <= '2')))
  }

  /** `:[0-5]\d` at position `i`. */
  predicate MinuteFieldAt(t: string, i: nat) {
    i + 3 <= |t| && t[i] == ':' && '0' <= t[i + 1] <= '5' && IsDigit(t[i + 2])
  }

  /** `/^(([0]?\d|[1]\d|2[0-3]):([0-5]\d))\b/` with an hour field of
      `hourLength` characters. */
  predicate FullTimeAt(t: string, hourLength: nat) {
    Hour24At(t, hourLength) && MinuteFieldAt(t, hourLength) && BoundaryAt(t, hourLength + 3)
  }

  /** `/^(([0]?\d|[1]\d|2[0-3]):([0-5]\d))\b/` */
  predicate IsFullTime(t: string) {
    FullTimeAt(t, 1) || FullTimeAt(t, 2)
  }

  /** `(am|pm)\b` at position `i`. */
  predicate MeridiemAt(t: string, i: nat) {
    i + 2 <= |t| && (t[i] == 'a' || t[i] == 'p') && t[i + 1] == 'm' && BoundaryAt(t, i + 2)
  }

  /** `/^(([0]?[1-9]|1[0-2]):[0-5]\d(\s)?(am|pm))\b/` with an hour field of
      `hourLength` characters; the optional white space is tried both ways. */
  predicate ClockTimeAt(t: string, hourLength: nat) {
    Hour12At(t, hourLength) && MinuteFieldAt(t, hourLength)
    && (MeridiemAt(t, hourLength + 3)
        || (hourLength + 3 < |t| && IsJsSpace(t[hourLength + 3]) && MeridiemAt(t, hourLength + 4)))
  }

  /** `/^(([0]?[1-9]|1[0-2]):[0-5]\d(\s)?(am|pm))\b/` */
  predicate IsClockTime(t: string) {
    ClockTimeAt(t, 1) || ClockTimeAt(t, 2)
  }

  /** The `every` and `at` keywords never match the same token. */
  lemma KeywordsExclusive(t: string)
    ensures !(IsEvery(t) && IsAt(t))
  {
  }

  /** A token that is entirely digits is a number token. */
  lemma DigitsAreNumber(t: string)
    requires |t| > 0 && AllDigits(t)
    ensures IsAnyNumber(t)
  {
    LeadingWordShape(t);
  }

  /** A `plain` token is never a number token. */
  lemma PlainIsNotNumber(t: string)
    requires IsPlain(t)
    ensures !IsAnyNumber(t)
  {
    assert LeadingWord(t)[0] == 'p';
  }

  // ---------------------------------------------------------------------
  // The time patterns read field by field
  // ---------------------------------------------------------------------

  /** An hour written in full: one or two digits of value `lo` to `hi`. */
  predicate IsHourText(x: string, lo: nat, hi: nat) {
    1 <= |x| <= 2 && AllDigits(x) && lo <= DigitsValue(x) <= hi
  }

  /** A text that starts with a minute: two digits of value at most 59. */
  predicate StartsWithMinute(x: string) {
    2 <= |x| && AllDigits(x[..2]) && DigitsValue(x[..2]) <= 59
  }

  /** `[0]?\d|[1]\d|2[0-3]` of `n` characters is an hour from 0 to 23, and
      `[0]?[1-9]|1[0-2]` one from 1 to 12. */
  lemma HourFieldValue(t: string, n: nat)
    requires 1 <= n <= 2 && n <= |t|
    ensures Hour24At(t, n) <==> IsHourText(t[..n], 0, 23)
    ensures Hour12At(t, n) <==> IsHourText(t[..n], 1, 12)
  {
    var x := t[..n];
    if AllDigits(x) {
      ShortDigitsValue(x);
    }
    assert n == 2 ==> x[0] == t[0] && x[1] == t[1];
    assert x[0] == t[0];
  }

  /** `:[0-5]\d` after hour position `n`, read on the first `:`-separated
      piece after it. */
  lemma MinuteFieldValue(t: string, n: nat)
    requires n < |t| && t[n] == ':'
    ensures MinuteFieldAt(t, n) <==> StartsWithMinute(Split(t[n + 1..], ':')[0])
  {
    var r := t[n + 1..];
    var q := Split(r, ':')[0];
    FirstPiece(r, ':');
    if MinuteFieldAt(t, n) {
      assert r[0] == t[n + 1] && r[1] == t[n + 2];
    }
    if 2 <= |q| {
      assert q[..2] == r[..2] && r[0] == t[n + 1] && r[1] == t[n + 2];
      if AllDigits(q[..2]) {
        ShortDigitsValue(q[..2]);
      }
    }
  }

  /** The `\b` after a minute field, read on the piece `q` that holds it. */
  lemma MinuteBoundary(t: string, n: nat)
    requires n < |t| && t[n] == ':' && MinuteFieldAt(t, n)
    requires 2 <= |Split(t[n + 1..], ':')[0]|
    ensures var q := Split(t[n + 1..], ':')[0];
      BoundaryAt(t, n + 3) <==> |q| == 2 || !IsWordChar(q[2])
  {
    var r := t[n + 1..];
    var q := Split(r, ':')[0];
    FirstPiece(r, ':');
    assert IsWordChar(t[n + 2]);
    if |q| > 2 {
      assert q[2] == r[2] == t[n + 3];
    } else if n + 3 < |t| {
      assert r[2] == t[n + 3];
    }
  }

  /** `(am|pm)\b` at position `j + i` of `t`, read on the prefix `x` of
      `t[j..]` that ends at the next `:`. */
  lemma MeridiemInPiece(t: string, j: nat, x: string, i: nat)
    requires j <= |t| && x <= t[j..] && (j + |x| < |t| ==> t[j + |x|] == ':')
    requires i <= 1 && i <= |x| && (i == 1 ==> t[j] != ':')
    ensures MeridiemAt(x, i) <==> MeridiemAt(t, j + i)
  {
    if i + 2 <= |x| {
      assert x[i] == t[j + i] && x[i + 1] == t[j + i + 1];
      if i + 2 < |x| {
        assert x[i + 2] == t[j + i + 2];
      }
    }
  }

  /** The `fullTime` pattern at hour length `n` read through `split(':')`:
      the hour is the text before the colon, and the first piece after it
      starts with the minute and goes on with a non-word character, if at
      all. */
  lemma FullTimeAtFields(t: string, n: nat)
    requires 1 <= n <= 2 && n < |t| && t[n] == ':'
    ensures var q := Split(t[n + 1..], ':')[0];
      FullTimeAt(t, n) <==> IsHourText(t[..n], 0, 23) && StartsWithMinute(q) && (|q| == 2 || !IsWordChar(q[2]))
  {
    HourFieldValue(t, n);
    MinuteFieldValue(t, n);
    if MinuteFieldAt(t, n) {
      MinuteBoundary(t, n);
    }
  }

  /** The `clockTime` pattern at hour length `n` read through `split(':')`:
      the hour is the text before the colon, and the first piece after it
      is the minute, an optional white space and `am` or `pm` at a word's
      end. */
  lemma ClockTimeAtFields(t: string, n: nat)
    requires 1 <= n <= 2 && n < |t| && t[n] == ':'
    ensures var q := Split(t[n + 1..], ':')[0];
      ClockTimeAt(t, n) <==> IsHourText(t[..n], 1, 12) && StartsWithMinute(q) && MeridiemTail(q[2..])
  {
    var r := t[n + 1..];
    var q := Split(r, ':')[0];
    HourFieldValue(t, n);
    MinuteFieldValue(t, n);
    if StartsWithMinute(q) {
      FirstPiece(r, ':');
      var m := q[2..];
      assert m <= t[n + 3..];
      assert n + 3 + |m| < |t| ==> t[n + 3 + |m|] == r[|q|] == ':';
      MeridiemInPiece(t, n + 3, m, 0);
      if |m| > 0 {
        assert m[0] == t[n + 3];
        if IsJsSpace(m[0]) {
          MeridiemInPiece(t, n + 3, m, 1);
        }
      } else if n + 3 < |t| {
        assert t[n + 3] == ':';
      }
    }
  }

  /** What follows the minute in a 12-hour time: `(\s)?(am|pm)\b`. */
  predicate MeridiemTail(m: string) {
    MeridiemAt(m, 0) || (|m| > 0 && IsJsSpace(m[0]) && MeridiemAt(m, 1))
  }

  /** The text before the first `:` of a time that either pattern reads. */
  lemma TimeSplitAt(t: string, n: nat)
    requires 1 <= n <= 2 && n < |t| && t[n] == ':' && AllDigits(t[..n])
    ensures var p := Split(t, ':'); |p| >= 2 && p[0] == t[..n] && p[1] == Split(t[n + 1..], ':')[0]
  {
    DigitsExclude(t[..n], ':');
    SplitAtFirst(t, n, ':');
  }

  /** `fullTime` in terms of the fields `split(':')` gives: an hour of one
      or two digits from 0 to 23, then a piece that starts with a minute
      from 00 to 59 and goes on, if at all, with a non-word character. */
  lemma FullTimeFields(t: string)
    ensures IsFullTime(t) <==>
      var p := Split(t, ':');
      && |p| >= 2 && IsHourText(p[0], 0, 23) && StartsWithMinute(p[1])
      && (|p[1]| == 2 || !IsWordChar(p[1][2]))
  {
    var p := Split(t, ':');
    FirstPiece(t, ':');
    if |p| >= 2 && 1 <= |p[0]| <= 2 {
      var n := |p[0]|;
      assert p[0] == t[..n];
      FullTimeAtFields(t, n);
    }
    forall n | 1 <= n <= 2 && FullTimeAt(t, n)
      ensures |p| >= 2 && p[0] == t[..n] && p[1] == Split(t[n + 1..], ':')[0]
    {
      HourFieldValue(t, n);
      TimeSplitAt(t, n);
      FullTimeAtFields(t, n);
    }
  }

  /** `clockTime` in terms of the fields `split(':')` gives: an hour of one
      or two digits from 1 to 12, then a piece that starts with a minute
      from 00 to 59 and goes on with an optional white space and `am` or
      `pm` at a word's end. */
  lemma ClockTimeFields(t: string)
    ensures IsClockTime(t) <==>
      var p := Split(t, ':');
      |p| >= 2 && IsHourText(p[0], 1, 12) && StartsWithMinute(p[1]) && MeridiemTail(p[1][2..])
  {
    var p := Split(t, ':');
    FirstPiece(t, ':');
    if |p| >= 2 && 1 <= |p[0]| <= 2 {
      var n := |p[0]|;
      assert p[0] == t[..n];
      ClockTimeAtFields(t, n);
    }
    forall n | 1 <= n <= 2 && ClockTimeAt(t, n)
      ensures |p| >= 2 && p[0] == t[..n] && p[1] == Split(t[n + 1..], ':')[0]
    {
      HourFieldValue(t, n);
      TimeSplitAt(t, n);
      ClockTimeAtFields(t, n);
    }
  }
}
